=== FILE: README.md ===
# drydock cluster specification, modelled in Dafny

drydock describes a small cluster of docker containers. A *container*
has a name, a base image, a domain and published ports. From these it
derives a fully-qualified name (`fqdn`), a service-discovery name
(`skyfqdn`), a `docker run` command line and, through a template, a
reverse-proxy (nginx) configuration. A *meta container* is a privileged
container that runs the others. It is built from a list of
`subcontainers` entries, some of which refer to remotely stored
specifications. It registers each child under its name, merges the
children's published ports into its own and keeps one reverse-proxy
entry per child. It renders the aggregate proxy configuration and its
own launch command.

The model is pure and functional. Containers, specifications and meta
containers are immutable datatypes. Every method of the two classes is
a function, and what the source promises is stated in contracts and
lemmas.

| module | file | what it holds |
|---|---|---|
| `Wrappers` | `wrappers.dfy` | `Option` and `Result` |
| `Sorting` | `sorting.dfy` | ascending enumeration of a finite set, and its uniqueness |
| `Strings` | `strings.dfy` | `sep.join`, `s.split(c)[-1]`, decimal notation, `str` ordering |
| `Maps` | `maps.dfy` | `dict.update` with a list of entries, and what it leaves |
| `Containers` | `container.dfy` | the leaf `Container`: identity, port/volume/env arguments, `docker run` command |
| `Specs` | `specs.dfy` | specification documents, the remote merge, binding to constructor arguments |
| `Metas` | `meta.dfy` | the `MetaContainer`: seeding, adoption, registration, the invariant, rendering |
| `Examples` | `examples.dfy` | the repository's test configurations worked through the model |

The meta container's invariant `Metas.Valid` says:

- its fqdn is its domain;
- its own http and https ports are published;
- every child is stored under its own name, with its identity equations intact;
- every child's ports are among the meta's published ports;
- there is exactly one reverse-proxy entry per child, keyed `name.domain` and
  describing that child.

Seeding establishes it, adding a child preserves it, and so every
successfully constructed meta container satisfies it.

## Model

| member | source | states |
|---|---|---|
| Containers.DefaultSpec | drydock/duster.py:9-11 | the constructor's defaults: base `ubuntu`, no ports, external, ports 0, empty domain, no volumes, envs or command, no data mount |
| Containers.NewContainer | drydock/duster.py:9-26 | a constructed container keeps every argument and satisfies both identity equations for its domain |
| Containers.SetDomain | drydock/duster.py:28-36 | the domain is replaced; fqdn is the domain for `root`, else `name.domain`; skyfqdn is `name.image.containers.drydock`; nothing else changes |
| Containers.SkyFqdnJoin | drydock/duster.py:35-36 | the dot-join of the four labels equals `name + "." + image + ".containers.drydock"` |
| Containers.SetDomainLastWins | drydock/duster.py:28-36 | rebinding twice equals rebinding once to the later domain; rebinding is idempotent |
| Containers.SkyFqdnIgnoresDomain | drydock/duster.py:35-36 | the discovery name does not depend on the domain |
| Containers.FqdnDeterminesDomain | drydock/duster.py:31-34 | outside the `root` case the fqdn is `name.` followed by the domain, so the domain can be read back |
| Containers.SkyFqdnOfNamespacedBase | drydock/duster.py:35 | for a base `namespace/image` only `image` enters the discovery name |
| Containers.ParsePortTokenRoundTrip | drydock/duster.py:42-43 | a `-p external:internal` argument reads back to its pair |
| Containers.EncodePorts | drydock/duster.py:40-44 | one argument per pair |
| Containers.DecodeEncodedPorts | drydock/duster.py:40-44 | encoding a list of pairs and decoding it gives the list back |
| Containers.PortEntries | drydock/duster.py:41 | entries of the port map, each with the map's target, in strictly ascending key order |
| Containers.PortEntriesComplete | drydock/duster.py:41 | every exposed port occurs among the entries |
| Containers.PortMaps | drydock/duster.py:38-44 | one `-p` argument per exposed port |
| Containers.PortMapsEntries | drydock/duster.py:41-43 | the i-th argument renders the i-th entry in ascending key order |
| Containers.PortMapsDecode | drydock/duster.py:38-44 | the arguments decode to the ascending entries |
| Containers.EntriesToMap | drydock/duster.py:41-43 | the ascending entries rebuild exactly the port map |
| Containers.DistinctEntriesToMap | drydock/duster.py:41-43 | entries with distinct keys that agree with a map and cover it rebuild it |
| Containers.PortMapsRoundTrip | drydock/duster.py:38-44 | the `-p` arguments decode, and the decoded entries rebuild the very port map rendered |
| Containers.VolumeTarget | drydock/duster.py:50-51 | the reader accepts only `-v /var/lib/<domain>/<name>` followed by `path:path` with equal halves, and whatever path it returns renders back to the very argument read |
| Containers.VolumeTargetRoundTrip | drydock/duster.py:50-51 | a rendered `-v /var/lib/<domain>/<name><path>:<path>` argument reads back to its path |
| Containers.VolumeTargetExact | drydock/duster.py:50-51 | the reader returns `path` exactly when the argument is the rendering of `path`, so it accepts nothing else |
| Containers.VolumeMaps | drydock/duster.py:46-52 | one `-v` argument per volume, in list order, each rendered from domain, name and path |
| Containers.VolumeMapsRoundTrip | drydock/duster.py:46-52 | each volume argument reads back, through the strict reader, to the volume at its position |
| Containers.ParseEnvTokenRoundTrip | drydock/duster.py:58 | a `-e "NAME=VALUE"` argument reads back to its pair when the name has no `=` |
| Containers.EnvArgs | drydock/duster.py:54-59 | one `-e` argument per env entry, in entry order |
| Containers.EnvArgsRoundTrip | drydock/duster.py:54-59 | the env arguments read back to the entries |
| Containers.FixedMounts | drydock/duster.py:67-69 | two mounts with the data mount, one without |
| Containers.DockerArgsLayout | drydock/duster.py:61-74 | the argument count adds up every group, and the list starts with the run flags, `--name` and `-h` |
| Containers.DockerArgsFixed | drydock/duster.py:67-74 | the data mount sits after the port maps exactly when `data` is set; the timezone mount, base and optional command sit where the layout puts them |
| Containers.DockerArgsPorts | drydock/duster.py:66 | the port maps follow the head directly |
| Containers.ArgsAfterMountsSuffix | drydock/duster.py:66-74 | after the head, the port maps and the mounts come the volume maps and everything after them |
| Containers.ArgsAfterMountsGroups | drydock/duster.py:70-71 | that tail starts with the volume maps, followed by the env args |
| Containers.DockerArgsVolumes | drydock/duster.py:70 | the volume maps follow the timezone mount, in list order |
| Containers.DockerArgsEnvs | drydock/duster.py:71 | the env args follow the volume maps, in entry order |
| Containers.DockerArgsPlain | drydock/duster.py:61-74 | without data, volumes, envs or command the arguments are the head, the port maps, the timezone mount and the base |
| Containers.DockerArgs | drydock/duster.py:61-74 | the argument list before joining; it has no contract of its own, its layout is stated group by group in `DockerArgsLayout`, `DockerArgsFixed`, `DockerArgsPorts`, `DockerArgsVolumes` and `DockerArgsEnvs` |
| Containers.DockerCommand | drydock/duster.py:61-75 | the space-joined argument list; it has no contract of its own, its head and tail are stated by `DockerCommandHead` and `DockerCommandTail` |
| Containers.DockerCommandHead | drydock/duster.py:61-75 | the command starts with the run flags, `--name <name>` and `-h <fqdn>`, space separated |
| Containers.DockerCommandTail | drydock/duster.py:72-75 | the command ends with the base, then the command override when one is set |
| Containers.NginxConfig | drydock/duster.py:77-79 | the renderer applied to the container; it has no contract of its own, since the template text is a parameter |
| Specs.GrabSpecification | drydock/duster.py:100-105 | the merged document lacks the reference key; its keys are both documents' keys; local values win; fetched values fill the rest |
| Specs.Resolve | drydock/duster.py:96-105 | an entry without a reference is used unchanged; a falsy link gives the entry merged onto an empty document; a truthy link naming a fetched document gives that document merged with the entry, so local values win and the fetched values fill the remaining keys; resolution fails exactly for a truthy link that names no fetched document |
| Specs.Bind | drydock/duster.py:9-26 | binding succeeds exactly for known keys, a name and well-shaped values; an unknown key and a missing name are reported as such; every one of the eleven keyword arguments is the mapping's value when present (and not `None`, for the arguments that accept it) and the constructor's default otherwise |
| Specs.BindUnbind | drydock/duster.py:9-11 | spelling out every argument of a specification and binding it gives the specification back |
| Specs.BindNameOnly | drydock/duster.py:9-11 | a mapping that only names the container binds to the defaults |
| Metas.ProxyOf | drydock/duster.py:121-126 | a proxy entry records the child's skyfqdn, external flag and http/https ports |
| Metas.DefaultMetaSpec | drydock/duster.py:84-85 | the meta's defaults: base `nekroze/drydock`, command `drydock supervise /drydock.yaml`, the leaf defaults for the rest |
| Metas.ProxyKeyInjective | drydock/duster.py:120 | under one domain, distinct child names give distinct proxy keys |
| Metas.ProxyKeysInsert | drydock/duster.py:120-121 | the proxy keys of one more name add that name's key |
| Metas.Seed | drydock/duster.py:84-93 | the seeded meta keeps its arguments, has fqdn equal to its domain and no children, publishes http then https (https last) on top of its own ports, and is valid |
| Metas.DefaultSeedPorts | drydock/duster.py:92-93 | with both proxy ports at their default 0, https overwrites http: only `0 -> 443` is published |
| Metas.SetMetaDomain | drydock/duster.py:107-110 | the meta's own update sets domain and fqdn to the domain and nothing else |
| Metas.SetMetaDomainValid | drydock/duster.py:107-110 | a meta without children stays valid under its own domain update |
| Metas.Adopt | drydock/duster.py:114-115 | a child with a domain is kept as it is; a child without one takes the meta's domain |
| Metas.AdoptKeepsIdentity | drydock/duster.py:114-115 | adoption keeps the identity equations and leaves no child domainless under a meta with a domain |
| Metas.AddContainer | drydock/duster.py:112-126 | the child is stored adopted under its name, its ports are merged, its proxy entry is written under `name.domain`; nothing else changes |
| Metas.AddContainerKeepsOthers | drydock/duster.py:117-121 | other children and proxy entries are kept; the child's port targets override the meta's, and the other targets are kept |
| Metas.AddContainerValid | drydock/duster.py:112-126 | adding a child with intact identity preserves the meta's invariant |
| Metas.PortsLaterWin | drydock/duster.py:118 | on a shared external port, the later child's target wins |
| Metas.ProxyKeyIgnoresChildDomain | drydock/duster.py:112-126 | a child with its own, different domain keeps it, yet its proxy entry is keyed under the meta's domain |
| Metas.AddAll | drydock/duster.py:95-98 | adding children in order changes only the registries (children, published ports, proxies), and the keys of each only grow |
| Metas.Registrations | drydock/duster.py:95-98 | the registry writes: each child, adopted, under its name, in list order |
| Metas.AddAllRegisters | drydock/duster.py:95-98 | adding a list of children performs exactly its registrations, in list order |
| Metas.RegisteredNames | drydock/duster.py:117 | the keys written are the children's names |
| Metas.AddAllNames | drydock/duster.py:95-98 | the registry holds the old names plus the listed ones |
| Metas.AddAllLastWins | drydock/duster.py:95-98 | a listed name holds the adopted form of the last child of that name |
| Metas.AddAllKeepsUnlisted | drydock/duster.py:95-98 | an unlisted name keeps its old child |
| Metas.AddAllContainers | drydock/duster.py:95-98 | the three facts above together |
| Metas.SameNames | drydock/duster.py:95-98 | lists holding the same children name the same children |
| Metas.SameListedChild | drydock/duster.py:95-98 | with distinct names, a listed name holds the same child whichever listing was added |
| Metas.SameChild | drydock/duster.py:95-98 | with distinct names, every registered name holds the same child whichever listing was added |
| Metas.AddAllOrderIndependent | drydock/duster.py:95-98 | with distinct names, the registry does not depend on the order of the list |
| Metas.AddAllValid | drydock/duster.py:95-98 | adding children with intact identities preserves the invariant |
| Metas.ChildOf | drydock/duster.py:96-98 | a child built from an entry satisfies the identity equations |
| Metas.ChildOfSucceeds | drydock/duster.py:96-98 | an entry yields a child exactly when it resolves and binds, and the child carries the bound name and domain |
| Metas.Collect | drydock/duster.py:95-98 | all-or-nothing collection: success exactly when every outcome succeeds, with the values in order; otherwise the first failure's error |
| Metas.Outcomes | drydock/duster.py:95-98 | one outcome per entry, the i-th being the child built from the i-th entry (resolved, then bound), each successful child with intact identity |
| Metas.BuildChildren | drydock/duster.py:95-98 | on success one child per entry, each with intact identity |
| Metas.NewMeta | drydock/duster.py:84-98 | construction succeeds exactly when every entry builds; the result is valid, named as given, has fqdn equal to the domain and holds exactly the built children's names; it is the seed built from the meta's own arguments with the built children added one by one in list order |
| Metas.SingleEntryBuilds | drydock/duster.py:95-98 | an entry that builds a child builds the one-child list |
| Metas.NewMetaLastEntryWins | drydock/duster.py:95-98 | in a constructed meta a name holds the child built from the last entry of that name, adopted into the meta's domain |
| Metas.SingleChildMeta | drydock/duster.py:84-98 | a meta whose entries build one child is its seed with that child added |
| Metas.ConfigsOf | drydock/duster.py:131-133 | the i-th configuration is the one rendered for the i-th listed child |
| Metas.ChildNames | drydock/duster.py:131 | every child name exactly once, in strictly ascending order |
| Metas.GetNginxConfig | drydock/duster.py:128-134 | no children give the empty string; a single child gives exactly its own configuration |
| Metas.NginxConfigIsSortedJoin | drydock/duster.py:128-134 | the output is the newline-join of the configurations in ascending name order, whatever produced that order |
| Metas.NginxOrderIndependent | drydock/duster.py:128-134 | with distinct names, the aggregate configuration does not depend on the order the children were listed in |
| Metas.MetaDockerArgsLayout | drydock/duster.py:141-149 | the argument count adds up every group, and the list starts with the privileged run flags, `--name <fqdn>` and `-h <fqdn>` |
| Metas.MetaDockerArgsFixed | drydock/duster.py:144-149 | the sites mount and the timezone mount follow the port maps, and the base comes last |
| Metas.MetaDockerArgsPorts | drydock/duster.py:144 | the port maps follow the head |
| Metas.MetaDockerArgsVolumes | drydock/duster.py:148 | the volume maps follow the two mounts, in list order |
| Metas.MetaDockerArgs | drydock/duster.py:141-149 | the meta's argument list before joining; it has no contract of its own, its layout is stated by `MetaDockerArgsLayout`, `MetaDockerArgsFixed`, `MetaDockerArgsPorts` and `MetaDockerArgsVolumes` |
| Metas.MetaDockerCommand | drydock/duster.py:136-150 | the space-joined argument list; it has no contract of its own, its head and tail are stated by `MetaDockerCommandHead` and `MetaDockerCommandTail` |
| Metas.MetaDockerCommandHead | drydock/duster.py:141-150 | the command starts with `docker run --privileged --name <fqdn> -h <fqdn> ` |
| Metas.MetaDockerCommandTail | drydock/duster.py:149-150 | the command ends with the base image |
| Metas.ValidPortsCover | drydock/duster.py:92-118 | a valid meta publishes its own proxy ports and every child's ports |
| Metas.MetaPublishesChildPorts | drydock/duster.py:136-150 | the meta's `-p` arguments decode to exactly its published ports, which include its proxy ports and every child's ports |
| Strings.Join | drydock/duster.py:75 | Python's `sep.join`; it has no contract of its own, its length and ends are stated by `JoinLength`, `JoinStartsWith` and `JoinEndsWith` |
| Strings.JoinLength | drydock/duster.py:75 | a join is as long as its parts plus one separator between neighbours |
| Strings.LastSegment | drydock/duster.py:35 | the text after the last separator; it has no contract of its own, its meaning is stated by `LastSegmentShape` and `LastSegmentAfter` |
| Strings.LastSegmentShape | drydock/duster.py:35 | the last segment is a suffix free of the separator, either the whole string or preceded by a separator |
| Strings.LastSegmentAfter | drydock/duster.py:35 | the segment after the last separator is what `split(c)[-1]` yields |
| Strings.NatToString | drydock/duster.py:42 | decimal notation: non-empty, digits only, no leading zero |
| Strings.ParseNatToString | drydock/duster.py:42 | decimal notation reads back to the number |
| Strings.IndexOf | drydock/duster.py:58 | the first occurrence of a character, or none |
| Strings.LexLessIsStrictTotalOrder | drydock/duster.py:131 | the ordering on names is a strict total order |
| Strings.SortedStrings | drydock/duster.py:131 | the names, each once, in strictly ascending order |
| Sorting.SortedNats | drydock/duster.py:41 | the ports, each once, in strictly ascending order |
| Sorting.SortedNatsUnique | drydock/duster.py:41 | any strictly ascending listing of the ports is the one sorting gives |
| Sorting.AscendingUnique | drydock/duster.py:41 | two ascending enumerations of the same elements are equal |
| Maps.Overwrite | drydock/duster.py:117 | the registry writes `d[k] = v` performed one after another across the loop; it has no contract of its own, its contents are stated by `OverwriteContents` and `OverwriteDistinct` |
| Maps.OverwriteContents | drydock/duster.py:117 | after a sequence of updates a key holds its last written value, and unwritten keys keep their old one |
| Maps.OverwriteDistinct | drydock/duster.py:117 | with distinct keys every written key holds its value |
| Examples.BlogBinds | test/test_container.py:10-30 | the blog configuration binds to name `blog`, base `nekroze/wordpress`, ports `{22: 22, 2222: 222}`, http 8081, https 4431, not external |
| Examples.BlogConstruction | test/test_container.py:22-32 | the blog's fqdn is `blog.nekroze.com` and its skyfqdn `blog.wordpress.containers.drydock` |
| Examples.BlogPortMaps | drydock/duster.py:38-44 | the blog's port maps are `-p 22:22` then `-p 2222:222` |
| Examples.BlogDockerCommand | drydock/duster.py:61-75 | the blog's full launch command, argument by argument |
| Examples.NekrozeChildren | test/test_metacontainer.py:10-21 | the meta's one entry builds the blog without a domain of its own |
| Examples.NekrozeBuilds | test/test_metacontainer.py:22-24 | the meta is its seed with the blog added |
| Examples.NekrozeChildFields | test/test_metacontainer.py:36-44 | the stored child `blog` keeps base `nekroze/wordpress`, ports `{22: 22, 2222: 222}`, http 8081, https 4431 and is not external |
| Examples.NekrozeConstruction | test/test_metacontainer.py:22-46 | the meta is named `nekroze.com-1` with domain and fqdn `nekroze.com`; its one child `blog` took the domain, with fqdn `blog.nekroze.com` and skyfqdn `blog.wordpress.containers.drydock` |

## Left out

- Fetching a remote specification (`urlopen`) and parsing YAML are I/O. The
  documents that would be fetched are a parameter, a map from link to
  parsed document. A link not in that map is a resolution error.
- The nginx template is a parameter of type `Renderer`. It receives the
  child's name, fqdn, skyfqdn and http/https ports. Its text is not modelled.
- Python's `dict` iteration order is not modelled. The env variables are an
  ordered list of pairs, and ports and children are emitted in sorted
  order, as the source sorts them.
- Dynamic typing: documents are values of a tagged union. Port targets are
  strings. The source accepts integers or strings there, and both render
  the same through `format`. Port keys are non-negative integers, while
  the source sorts and renders whatever keys it is given.
- Specs.Bind: refuses some values the constructor accepts without error.
  These are a non-boolean `external` or `data`, which Python stores and
  only tests for truth or copies (duster.py:17, 24, 67, 123). Also any
  `http_port` or `https_port` that is not a non-negative integer, which
  Python stores and copies into the proxy record (duster.py:22-23, 124-125).
  Also an `exposed_ports` key that is not a non-negative integer, which
  Python sorts and renders as given (duster.py:41-43).
  Also a `volumes` value that is some other iterable, such as a string,
  which Python iterates element by element (duster.py:25, 49). Also an
  `exposed_ports` given as a list of key/value pairs, which `dict.update`
  accepts (duster.py:20-21). Also a falsy value of any type for
  `exposed_ports`, `volumes`, `envs` or `command`, which Python treats as
  absent (duster.py:16, 20, 25, 73). Also a truthy non-string `command` or non-mapping
  `envs`, which Python stores and which fail only when the command is
  rendered (duster.py:57, 75). Also a non-string `domain` for a container
  named `root`, which Python stores as its fqdn (duster.py:31-32). For any
  other container, a non-string `name`, `base` or `domain` fails in the
  constructor in Python too (duster.py:34-35), as it does here.
- Metas.NewMeta: takes the meta's own arguments as an already typed
  record. The keyword binding of `MetaContainer(**mapping)` (duster.py:84-88)
  is not modelled. Python raises there for a missing `name`, `domain` or
  `subcontainers` or an unknown key, and those inputs cannot be written
  here. The meta's own `http_port`, `https_port` and `exposed_ports` keys
  are non-negative integers. Python accepts a negative proxy port and
  renders it, for example as `-p -1:80` (duster.py:42, 92-93).
- `None` as a command is the empty string, since the source only tests it
  for truth.
- Python's mutation and aliasing: a child object adopted by a meta is
  changed in place. Here the meta stores the adopted copy.
- A meta's construction is all-or-nothing: the first entry that fails to
  resolve or bind fails construction. Python raises an exception at that
  entry.
- The meta container's seed ports start from its own `exposed_ports`
  argument, as the code does (it passes the keyword arguments through to
  the leaf constructor). It then publishes `http_port -> "80"` and
  `https_port -> "443"`.
- `test/test_container.py:34-39` calls `get_supervisor_config`, which
  `drydock/duster.py` does not define.
- `test/test_container.py:100-104` expects an older command format.
  `Examples.BlogDockerCommand` states the command the code builds.
- The templates module that renders the nginx configuration is not part of
  this model.
- `Examples.BlogDockerCommand` states the expected command as a
  concatenation of its arguments with single spaces, not as one literal.
- `Metas.SetMetaDomain` keeps the invariant only for a meta without
  children. The source leaves existing children's domains and proxy keys
  untouched, so they go stale.
- `Containers.PortMaps` states only the number of arguments.
  `Containers.PortMapsEntries`, `Containers.PortMapsDecode` and
  `Containers.PortMapsRoundTrip` state the contents.
- `Metas.AddContainer` states the written entries and the frame. Kept
  entries are stated by `Metas.AddContainerKeepsOthers`.
- `Metas.ChildOf` states only the identity of a built child. When it
  succeeds is stated by `Metas.ChildOfSucceeds`.
- `Metas.BuildChildren` states only the shape of a successful build. When
  it succeeds is stated by `Metas.Collect` and `Metas.NewMeta`.

=== FILE: container.dfy ===
/**
 * The leaf container of a drydock cluster specification: how its identity
 * (fully-qualified name and service-discovery name) is derived from name,
 * domain and base image, and how the fragments of its `docker run` command
 * are rendered.
 */
module Containers {
  import opened Wrappers
  import opened Strings
  import opened Sorting
  import opened Maps

  /**
   * The constructor's keyword arguments with their defaults applied.
   * An absent `command` is the empty string: the source only ever tests
   * it for truth, so `None` and `""` behave the same.
   */
  datatype ContainerSpec = ContainerSpec(
    name: string,
    base: string,
    exposed_ports: map<nat, string>,
    external: bool,
    http_port: nat,
    https_port: nat,
    domain: string,
    volumes: seq<string>,
    envs: seq<(string, string)>,
    command: string,
    data: bool)

  /** A specification that names a container and leaves every other argument at its default. */
  function DefaultSpec(name: string): (s: ContainerSpec)
    ensures s.name == name && s.base == "ubuntu" && s.domain == ""
    ensures s.exposed_ports == map[] && s.volumes == [] && s.envs == []
    ensures s.external && !s.data && s.http_port == 0 && s.https_port == 0 && s.command == ""
  {
    ContainerSpec(name, "ubuntu", map[], true, 0, 0, "", [], [], "", false)
  }

  /** A constructed container: the specification plus its derived identity. */
  datatype Container = Container(
    name: string,
    base: string,
    domain: string,
    fqdn: string,
    skyfqdn: string,
    exposed_ports: map<nat, string>,
    external: bool,
    http_port: nat,
    https_port: nat,
    volumes: seq<string>,
    envs: seq<(string, string)>,
    command: string,
    data: bool)

  /** The name that keeps a container's fqdn equal to its domain. */
  const RootName := "root"

  /** The zone every container's discovery name lives in. */
  const DiscoveryZone := ".containers.drydock"

  /** The two identity equations every constructed container satisfies. */
  ghost predicate HasIdentity(c: Container) {
    && c.fqdn == (if c.name == RootName then c.domain else c.name + "." + c.domain)
    && c.skyfqdn == c.name + "." + LastSegment(c.base, '/') + DiscoveryZone
  }

  /** Rebinds the container to `domain`, recomputing both derived names. */
  function SetDomain(c: Container, domain: string): (r: Container)
    ensures r.domain == domain
    ensures c.name == RootName ==> r.fqdn == domain
    ensures c.name != RootName ==> r.fqdn == c.name + "." + domain
    ensures r.skyfqdn == c.name + "." + LastSegment(c.base, '/') + DiscoveryZone
    ensures HasIdentity(r)
    ensures r.(domain := c.domain, fqdn := c.fqdn, skyfqdn := c.skyfqdn) == c
  {
    var image := LastSegment(c.base, '/');
    SkyFqdnJoin(c.name, image);
    c.(domain := domain,
       fqdn := if c.name == RootName then domain else c.name + "." + domain,
       skyfqdn := Join([c.name, image, "containers", "drydock"], "."))
  }

  /** The discovery name, dot-joined from its four labels. */
  lemma SkyFqdnJoin(name: string, image: string)
    ensures Join([name, image, "containers", "drydock"], ".") == name + "." + image + DiscoveryZone
  {
    JoinCons("containers", ["drydock"], ".");
    JoinCons(image, ["containers", "drydock"], ".");
    JoinCons(name, [image, "containers", "drydock"], ".");
  }

  /** Builds a container from its specification; the last step binds the domain. */
  function NewContainer(spec: ContainerSpec): (c: Container)
    ensures c.name == spec.name && c.base == spec.base && c.domain == spec.domain
    ensures c.exposed_ports == spec.exposed_ports && c.external == spec.external
    ensures c.http_port == spec.http_port && c.https_port == spec.https_port
    ensures c.volumes == spec.volumes && c.envs == spec.envs
    ensures c.command == spec.command && c.data == spec.data
    ensures HasIdentity(c)
  {
    var unbound := Container(spec.name, spec.base, "", "", "", spec.exposed_ports, spec.external,
                             spec.http_port, spec.https_port, spec.volumes, spec.envs,
                             spec.command, spec.data);
    SetDomain(unbound, spec.domain)
  }

  /** Rebinding twice is rebinding once to the later domain; in particular rebinding is idempotent. */
  lemma SetDomainLastWins(c: Container, d1: string, d2: string)
    ensures SetDomain(SetDomain(c, d1), d2) == SetDomain(c, d2)
    ensures SetDomain(SetDomain(c, d2), d2) == SetDomain(c, d2)
  {
  }

  /** The discovery name does not depend on the domain. */
  lemma SkyFqdnIgnoresDomain(c: Container, d1: string, d2: string)
    ensures SetDomain(c, d1).skyfqdn == SetDomain(c, d2).skyfqdn
  {
  }

  /** Outside the root case, the domain can be read back from the fqdn. */
  lemma FqdnDeterminesDomain(c: Container)
    requires HasIdentity(c) && c.name != RootName
    ensures |c.name| < |c.fqdn| && c.fqdn[..|c.name| + 1] == c.name + "."
    ensures c.fqdn[|c.name| + 1..] == c.domain
  {
  }

  /** The discovery name keeps only the last path segment of a namespaced base image. */
  lemma SkyFqdnOfNamespacedBase(c: Container, namespace: string, image: string)
    requires HasIdentity(c) && c.base == namespace + "/" + image && '/' !in image
    ensures c.skyfqdn == c.name + "." + image + DiscoveryZone
  {
    LastSegmentAfter(namespace, '/', image);
  }

  // ------------------------------------------------------------ port maps

  /** One `-p external:internal` argument. */
  function PortToken(external: nat, internal: string): string {
    "-p " + NatToString(external) + ":" + internal
  }

  /** Reads a `-p external:internal` argument back. */
  function ParsePortToken(t: string): Option<(nat, string)> {
    if |t| < 3 || t[..3] != "-p " then None
    else
      var rest := t[3..];
      match IndexOf(rest, ':')
      case None => None
      case Some(i) =>
        if i == 0 || !AllDigits(rest[..i]) then None
        else Some((ParseNat(rest[..i]), rest[i + 1..]))
  }

  lemma ParsePortTokenRoundTrip(external: nat, internal: string)
    ensures ParsePortToken(PortToken(external, internal)) == Some((external, internal))
  {
    var digits := NatToString(external);
    var t := PortToken(external, internal);
    assert t[..3] == "-p ";
    assert t[3..] == digits + [':'] + internal;
    assert ':' !in digits by {
      forall i | 0 <= i < |digits| ensures digits[i] != ':' {
        assert IsDigit(digits[i]);
      }
    }
    IndexOfAfter(digits, ':', internal);
    assert (digits + [':'] + internal)[..|digits|] == digits;
    assert (digits + [':'] + internal)[|digits| + 1..] == internal;
    ParseNatToString(external);
  }

  /** Reads a whole list of port arguments back; `None` if any of them is malformed. */
  function DecodePortMaps(ts: seq<string>): Option<seq<(nat, string)>>
    decreases |ts|
  {
    if |ts| == 0 then Some([])
    else
      match ParsePortToken(ts[0])
      case None => None
      case Some(p) =>
        match DecodePortMaps(ts[1..])
        case None => None
        case Some(ps) => Some([p] + ps)
  }

  /** The `-p` arguments for a list of (external, internal) pairs, in list order. */
  function EncodePorts(pairs: seq<(nat, string)>): (r: seq<string>)
    ensures |r| == |pairs|
  {
    seq(|pairs|, i requires 0 <= i < |pairs| => PortToken(pairs[i].0, pairs[i].1))
  }

  /** Encoding pairs as `-p` arguments and reading them back gives the pairs. */
  lemma {:induction false} DecodeEncodedPorts(pairs: seq<(nat, string)>)
    ensures DecodePortMaps(EncodePorts(pairs)) == Some(pairs)
    decreases |pairs|
  {
    var ts := EncodePorts(pairs);
    if |pairs| > 0 {
      ParsePortTokenRoundTrip(pairs[0].0, pairs[0].1);
      var tail := pairs[1..];
      assert ts[1..] == EncodePorts(tail);
      DecodeEncodedPorts(tail);
      assert pairs == [pairs[0]] + tail;
    }
  }

  /**
   * The entries of a port map in strictly ascending order of the external
   * port, each entry once (`PortEntriesComplete` adds that every key occurs).
   */
  function PortEntries(ports: map<nat, string>): (pairs: seq<(nat, string)>)
    ensures |pairs| == |ports|
    ensures forall i | 0 <= i < |pairs| :: pairs[i].0 in ports && ports[pairs[i].0] == pairs[i].1
    ensures forall i, j | 0 <= i < j < |pairs| :: pairs[i].0 < pairs[j].0
  {
    var keys := SortedNats(ports.Keys);
    assert forall i | 0 <= i < |keys| :: keys[i] in ports by {
      forall i | 0 <= i < |keys| ensures keys[i] in ports {
        assert keys[i] in keys;
      }
    }
    seq(|keys|, i requires 0 <= i < |keys| => (keys[i], ports[keys[i]]))
  }

  /** Every entry of the port map occurs among the ascending entries. */
  lemma PortEntriesComplete(ports: map<nat, string>)
    ensures KeysOf(PortEntries(ports)) == ports.Keys
  {
    var keys := SortedNats(ports.Keys);
    var pairs := PortEntries(ports);
    forall k | k in ports
      ensures k in KeysOf(pairs)
    {
      assert k in keys;
      var i :| 0 <= i < |keys| && keys[i] == k;
      assert pairs[i].0 == k;
    }
  }

  /**
   * The `-p` arguments for a port map: one per exposed port, and they read
   * back to the map's entries in ascending order of the external port.
   */
  function PortMaps(ports: map<nat, string>): (r: seq<string>)
    ensures |r| == |ports|
  {
    EncodePorts(PortEntries(ports))
  }

  /** The argument at position i renders the i-th entry in ascending key order. */
  lemma PortMapsEntries(ports: map<nat, string>)
    ensures var r, pairs := PortMaps(ports), PortEntries(ports);
      forall i | 0 <= i < |r| :: r[i] == PortToken(pairs[i].0, pairs[i].1)
  {
  }

  /** The `-p` arguments read back to the ascending entries of the port map. */
  lemma PortMapsDecode(ports: map<nat, string>)
    ensures DecodePortMaps(PortMaps(ports)) == Some(PortEntries(ports))
  {
    DecodeEncodedPorts(PortEntries(ports));
  }

  /** The ascending entries of a port map, written into an empty map, rebuild exactly that map. */
  lemma EntriesToMap(ports: map<nat, string>)
    ensures Overwrite(map[], PortEntries(ports)) == ports
  {
    PortEntriesComplete(ports);
    DistinctEntriesToMap(ports, PortEntries(ports));
  }

  /** Entries with distinct keys that cover a map and agree with it rebuild it. */
  lemma DistinctEntriesToMap(ports: map<nat, string>, pairs: seq<(nat, string)>)
    requires forall i | 0 <= i < |pairs| :: pairs[i].0 in ports && ports[pairs[i].0] == pairs[i].1
    requires forall i, j | 0 <= i < j < |pairs| :: pairs[i].0 != pairs[j].0
    requires KeysOf(pairs) == ports.Keys
    ensures Overwrite(map[], pairs) == ports
  {
    var m := Overwrite(map[], pairs);
    OverwriteDistinct(map[], pairs);
    forall k | k in ports
      ensures m[k] == ports[k]
    {
      var i :| 0 <= i < |pairs| && pairs[i].0 == k;
    }
  }

  /** Nothing is lost by rendering: the `-p` arguments read back to the very port map rendered. */
  lemma PortMapsRoundTrip(ports: map<nat, string>)
    ensures DecodePortMaps(PortMaps(ports)).Some?
    ensures Overwrite(map[], DecodePortMaps(PortMaps(ports)).value) == ports
  {
    PortMapsDecode(ports);
    EntriesToMap(ports);
  }

  // ---------------------------------------------------------- volume maps

  /** The host directory that holds the volumes of container `name` in `domain`. */
  function VolumeRoot(domain: string, name: string): string {
    "/var/lib/" + domain + "/" + name
  }

  /** One `-v host:path` argument: `path` inside the container, backed under its volume root. */
  function VolumeToken(domain: string, name: string, path: string): string {
    "-v " + VolumeRoot(domain, name) + path + ":" + path
  }

  /**
   * Reads a volume argument rendered for `name` in `domain` back to its
   * container-side path: the argument must start with `-v ` and the volume
   * root, and the rest must be `path:path` with both halves equal.
   */
  function VolumeTarget(t: string, domain: string, name: string): (r: Option<string>)
    ensures r.Some? ==> t == VolumeToken(domain, name, r.value)
  {
    var prefix := "-v " + VolumeRoot(domain, name);
    if |t| < |prefix| || t[..|prefix|] != prefix then None
    else
      var rest := t[|prefix|..];
      var half := |rest| / 2;
      if |rest| % 2 == 0 || rest[half] != ':' || rest[..half] != rest[half + 1..] then None
      else
        assert rest == rest[..half] + [':'] + rest[half + 1..];
        assert t == prefix + rest;
        Some(rest[half + 1..])
  }

  /** A volume argument reads back to the path it was rendered from. */
  lemma VolumeTargetRoundTrip(domain: string, name: string, path: string)
    ensures VolumeTarget(VolumeToken(domain, name, path), domain, name) == Some(path)
  {
    var prefix := "-v " + VolumeRoot(domain, name);
    var t := VolumeToken(domain, name, path);
    assert t == prefix + (path + ":" + path);
    assert t[..|prefix|] == prefix;
    var rest := t[|prefix|..];
    assert rest == path + ":" + path;
    assert rest[|path|] == ':';
    assert rest[..|path|] == path;
    assert rest[|path| + 1..] == path;
  }

  /** The reader accepts exactly the rendered arguments: it succeeds with `path` iff `t` renders `path`. */
  lemma VolumeTargetExact(t: string, domain: string, name: string, path: string)
    ensures VolumeTarget(t, domain, name) == Some(path) <==> t == VolumeToken(domain, name, path)
  {
    if t == VolumeToken(domain, name, path) {
      VolumeTargetRoundTrip(domain, name, path);
    }
  }

  /** The `-v` arguments for the volume list: one per volume, in list order. */
  function VolumeMaps(domain: string, name: string, volumes: seq<string>): (r: seq<string>)
    ensures |r| == |volumes|
    ensures forall i | 0 <= i < |r| :: r[i] == VolumeToken(domain, name, volumes[i])
  {
    seq(|volumes|, i requires 0 <= i < |volumes| => VolumeToken(domain, name, volumes[i]))
  }

  /** The volume arguments read back to the volume list. */
  lemma VolumeMapsRoundTrip(domain: string, name: string, volumes: seq<string>)
    ensures |VolumeMaps(domain, name, volumes)| == |volumes|
    ensures forall i | 0 <= i < |volumes| ::
      VolumeTarget(VolumeMaps(domain, name, volumes)[i], domain, name) == Some(volumes[i])
  {
    forall i | 0 <= i < |volumes|
      ensures VolumeTarget(VolumeMaps(domain, name, volumes)[i], domain, name) == Some(volumes[i])
    {
      VolumeTargetRoundTrip(domain, name, volumes[i]);
    }
  }

  // ------------------------------------------------------------- env args

  /** One `-e "NAME=VALUE"` argument. */
  function EnvToken(name: string, value: string): string {
    "-e \"" + name + "=" + value + "\""
  }

  /** Reads a `-e "NAME=VALUE"` argument back, splitting at the first `=`. */
  function ParseEnvToken(t: string): Option<(string, string)> {
    if |t| < 5 || t[..4] != "-e \"" || t[|t| - 1] != '"' then None
    else
      var body := t[4..|t| - 1];
      match IndexOf(body, '=')
      case None => None
      case Some(i) => Some((body[..i], body[i + 1..]))
  }

  lemma ParseEnvTokenRoundTrip(name: string, value: string)
    requires '=' !in name
    ensures ParseEnvToken(EnvToken(name, value)) == Some((name, value))
  {
    var t := EnvToken(name, value);
    assert t[..4] == "-e \"";
    assert t[4..|t| - 1] == name + ['='] + value;
    IndexOfAfter(name, '=', value);
    assert (name + ['='] + value)[..|name|] == name;
    assert (name + ['='] + value)[|name| + 1..] == value;
  }

  /** The `-e` arguments for the environment: one per entry, in entry order. */
  function EnvArgs(envs: seq<(string, string)>): (r: seq<string>)
    ensures |r| == |envs|
    ensures forall i | 0 <= i < |r| :: r[i] == EnvToken(envs[i].0, envs[i].1)
  {
    seq(|envs|, i requires 0 <= i < |envs| => EnvToken(envs[i].0, envs[i].1))
  }

  /** Environment arguments read back to the entries, when no variable name holds `=`. */
  lemma EnvArgsRoundTrip(envs: seq<(string, string)>)
    requires forall i | 0 <= i < |envs| :: '=' !in envs[i].0
    ensures forall i | 0 <= i < |envs| :: ParseEnvToken(EnvArgs(envs)[i]) == Some(envs[i])
  {
    forall i | 0 <= i < |envs| ensures ParseEnvToken(EnvArgs(envs)[i]) == Some(envs[i]) {
      ParseEnvTokenRoundTrip(envs[i].0, envs[i].1);
    }
  }

  // ------------------------------------------------------- docker command

  const RunDetached := "docker run -d --dns 172.17.42.1"
  const SharedDataMount := "-v /mnt/drydock:/mnt/drydock"
  const TimezoneMount := "-v /etc/timezone:/etc/timezone:ro"

  /**
   * The argument list of the container's `docker run` command. Writing
   * P, D, V, E for the number of port maps, of data mounts (one exactly
   * when `data` is set), of volumes and of env entries, the list is laid
   * out as: run flags, name, hostname | P port maps | D data mount |
   * timezone mount | V volume maps | E env args | base | command if any.
   */
  function DockerArgs(c: Container): seq<string> {
    [RunDetached, "--name " + c.name, "-h " + c.fqdn] + ArgsAfterHead(c)
  }

  /** The argument list's length counts every group, and it starts with the run flags, name and hostname. */
  lemma DockerArgsLayout(c: Container)
    ensures var r, p, d := DockerArgs(c), |c.exposed_ports|, if c.data then 1 else 0;
      && |r| == 5 + p + d + |c.volumes| + |c.envs| + (if c.command != "" then 1 else 0)
      && r[..3] == [RunDetached, "--name " + c.name, "-h " + c.fqdn]
  {
  }

  /** The data mount appears exactly when `data` is set; the timezone mount, base and command sit where the layout puts them. */
  lemma DockerArgsFixed(c: Container)
    ensures var r, p, d := DockerArgs(c), |c.exposed_ports|, if c.data then 1 else 0;
      var k := 4 + p + d + |c.volumes| + |c.envs|;
      && |r| == k + 1 + (if c.command != "" then 1 else 0)
      && (c.data <==> r[3 + p] == SharedDataMount)
      && r[3 + p + d] == TimezoneMount
      && r[k] == c.base
      && (c.command != "" ==> r[k + 1] == c.command)
  {
  }

  /** The argument list with the head taken off: every later group, in order. */
  function ArgsAfterHead(c: Container): seq<string> {
    PortMaps(c.exposed_ports) + (FixedMounts(c.data) + ArgsAfterMounts(c))
  }

  /** The shared data mount when `data` is set, then the timezone mount. */
  function FixedMounts(data: bool): (r: seq<string>)
    ensures |r| == if data then 2 else 1
  {
    (if data then [SharedDataMount] else []) + [TimezoneMount]
  }

  /** The argument list from the volume maps on. */
  function ArgsAfterMounts(c: Container): seq<string> {
    VolumeMaps(c.domain, c.name, c.volumes)
    + (EnvArgs(c.envs)
    + ([c.base]
    + (if c.command != "" then [c.command] else [])))
  }

  /** A container without data, volumes, env or command runs with the head, its port maps, the timezone mount and its base. */
  lemma DockerArgsPlain(c: Container)
    requires !c.data && c.volumes == [] && c.envs == [] && c.command == ""
    ensures DockerArgs(c) == [RunDetached, "--name " + c.name, "-h " + c.fqdn]
      + PortMaps(c.exposed_ports) + [TimezoneMount, c.base]
  {
    assert ArgsAfterMounts(c) == [c.base];
  }

  /** The port maps follow the head directly, in the order `PortMaps` gives them. */
  lemma DockerArgsPorts(c: Container)
    ensures var r, p := DockerArgs(c), |c.exposed_ports|;
      r[3..3 + p] == PortMaps(c.exposed_ports)
  {
    var r, p := DockerArgs(c), |c.exposed_ports|;
    var rest := ArgsAfterHead(c);
    assert r == [RunDetached, "--name " + c.name, "-h " + c.fqdn] + rest;
    PrefixOfConcat([RunDetached, "--name " + c.name, "-h " + c.fqdn], rest);
    PrefixOfConcat(PortMaps(c.exposed_ports), rest[p..]);
    SliceOfSlice(r, 3, p);
  }

  lemma {:induction false} ArgsAfterMountsSuffix(c: Container)
    ensures var p, d := |c.exposed_ports|, if c.data then 1 else 0;
      4 + p + d <= |DockerArgs(c)| && DockerArgs(c)[4 + p + d..] == ArgsAfterMounts(c)
  {
    SuffixAfterThree([RunDetached, "--name " + c.name, "-h " + c.fqdn], PortMaps(c.exposed_ports),
                     FixedMounts(c.data), ArgsAfterMounts(c));
  }

  lemma ArgsAfterMountsGroups(c: Container)
    ensures var tail, v, e := ArgsAfterMounts(c), |c.volumes|, |c.envs|;
      && tail[..v] == VolumeMaps(c.domain, c.name, c.volumes)
      && tail[v..v + e] == EnvArgs(c.envs)
  {
    var tail, v, e := ArgsAfterMounts(c), |c.volumes|, |c.envs|;
    var later := [c.base] + (if c.command != "" then [c.command] else []);
    PrefixOfConcat(VolumeMaps(c.domain, c.name, c.volumes), EnvArgs(c.envs) + later);
    PrefixOfConcat(EnvArgs(c.envs), later);
    SliceOfSlice(tail, v, e);
  }

  /** The volume maps follow the timezone mount, in list order. */
  lemma DockerArgsVolumes(c: Container)
    ensures var r, k := DockerArgs(c), 4 + |c.exposed_ports| + (if c.data then 1 else 0);
      r[k..k + |c.volumes|] == VolumeMaps(c.domain, c.name, c.volumes)
  {
    var vs := VolumeMaps(c.domain, c.name, c.volumes);
    ArgsAfterMountsSuffix(c);
    ArgsAfterMountsGroups(c);
    GroupsOfSuffix(DockerArgs(c), 4 + |c.exposed_ports| + (if c.data then 1 else 0), ArgsAfterMounts(c), vs, []);
  }

  /** The env args follow the volume maps, in entry order. */
  lemma DockerArgsEnvs(c: Container)
    ensures var r, k := DockerArgs(c), 4 + |c.exposed_ports| + (if c.data then 1 else 0) + |c.volumes|;
      r[k..k + |c.envs|] == EnvArgs(c.envs)
  {
    ArgsAfterMountsSuffix(c);
    ArgsAfterMountsGroups(c);
    GroupsOfSuffix(DockerArgs(c), 4 + |c.exposed_ports| + (if c.data then 1 else 0),
                   ArgsAfterMounts(c), VolumeMaps(c.domain, c.name, c.volumes), EnvArgs(c.envs));
  }

  /** The container's `docker run` command: its arguments joined by single spaces. */
  function DockerCommand(c: Container): string {
    Join(DockerArgs(c), " ")
  }

  /** The command starts with the run flags, `--name <name>` and `-h <fqdn>`. */
  lemma DockerCommandHead(c: Container)
    ensures var cmd := DockerCommand(c);
      var head := RunDetached + " " + ("--name " + c.name) + " " + ("-h " + c.fqdn) + " ";
      |head| <= |cmd| && cmd[..|head|] == head
  {
    var args := DockerArgs(c);
    assert args[0] == RunDetached && args[1] == "--name " + c.name && args[2] == "-h " + c.fqdn by {
      assert args[..3] == [RunDetached, "--name " + c.name, "-h " + c.fqdn];
    }
    JoinStartsWith(args, " ");
  }

  /** The command ends with the base image, followed by the command override when there is one. */
  lemma DockerCommandTail(c: Container)
    ensures var cmd := DockerCommand(c);
      var tail := if c.command != "" then " " + c.base + " " + c.command else " " + c.base;
      |tail| <= |cmd| && cmd[|cmd| - |tail|..] == tail
  {
    if c.command != "" {
      JoinEndsWithTwo(DockerArgs(c), " ");
    } else {
      JoinEndsWith(DockerArgs(c), " ");
    }
  }

  // ----------------------------------------------------------------- nginx

  /**
   * The template renderer the proxy configuration is delegated to; it
   * receives name, fqdn, skyfqdn, http port and https port.
   */
  type Renderer = (string, string, string, nat, nat) -> string

  /** The container's reverse-proxy configuration, as rendered from its resolved identity. */
  function NginxConfig(c: Container, render: Renderer): string {
    render(c.name, c.fqdn, c.skyfqdn, c.http_port, c.https_port)
  }
}

=== FILE: examples.dfy ===
/**
 * The configurations of the repository's tests, worked through the model:
 * the `blog` container on its own and as the only child of the meta
 * container `nekroze.com-1`.
 */
module Examples {
  import opened Wrappers
  import opened Strings
  import opened Containers
  import opened Specs
  import opened Metas

  /** The blog's published ports; the targets are written as strings. */
  const BlogPorts: map<nat, string> := map[22 := "22", 2222 := "222"]

  /** The blog's entry, without a domain of its own. */
  const BlogEntry: Mapping := map[
    "name" := Str("blog"),
    "base" := Str("nekroze/wordpress"),
    "exposed_ports" := Ports(BlogPorts),
    "http_port" := Int(8081),
    "https_port" := Int(4431),
    "external" := Bool(false)]

  /** The blog's stand-alone configuration: the same entry with a domain. */
  const BlogConfig: Mapping := BlogEntry["domain" := Str("nekroze.com")]

  lemma DecimalPorts()
    ensures NatToString(22) == "22" && NatToString(2222) == "2222"
  {
    assert DigitChar(2) == '2';
    assert NatToString(2) == "2";
    assert NatToString(22) == "22";
    assert NatToString(222) == "222";
  }

  /** Any port map with the blog's two entries lists them as the tests expect. */
  lemma BlogLikeEntries(ports: map<nat, string>)
    requires ports.Keys == {22, 2222} && ports[22] == "22" && ports[2222] == "222"
    ensures PortEntries(ports) == [(22, "22"), (2222, "222")]
  {
    var pairs := PortEntries(ports);
    assert |ports| == 2 by {
      assert |ports.Keys| == 2;
    }
    assert pairs[0].0 in ports && pairs[1].0 in ports;
  }

  /** The blog's ports in ascending order of external port. */
  lemma BlogPortEntries()
    ensures PortEntries(BlogPorts) == [(22, "22"), (2222, "222")]
  {
    assert BlogPorts.Keys == {22, 2222};
    BlogLikeEntries(BlogPorts);
  }

  lemma BlogPortTokens()
    ensures PortToken(22, "22") == "-p 22:22" && PortToken(2222, "222") == "-p 2222:222"
  {
    DecimalPorts();
  }

  /** The port maps of any port map with the blog's entries. */
  lemma BlogLikePortMaps(ports: map<nat, string>)
    requires PortEntries(ports) == [(22, "22"), (2222, "222")]
    ensures PortMaps(ports) == ["-p 22:22", "-p 2222:222"]
  {
    var r := PortMaps(ports);
    assert r[0] == PortToken(22, "22") && r[1] == PortToken(2222, "222") by {
      PortMapsEntries(ports);
    }
    BlogPortTokens();
  }

  /** Port maps come out in ascending order of external port. */
  lemma BlogPortMaps()
    ensures PortMaps(BlogPorts) == ["-p 22:22", "-p 2222:222"]
  {
    BlogPortEntries();
    BlogLikePortMaps(BlogPorts);
  }

  /** The specification the blog's configuration stands for, defaults filled in. */
  const BlogSpec := ContainerSpec("blog", "nekroze/wordpress", BlogPorts, false, 8081, 4431,
                                  "nekroze.com", [], [], "", false)

  /** Binding a mapping with the blog's values gives the blog's specification, defaults for the rest. */
  lemma BlogLikeBinds(m: Mapping, domain: string)
    requires "name" in m && m["name"] == Str("blog")
    requires "base" in m && m["base"] == Str("nekroze/wordpress")
    requires "exposed_ports" in m && m["exposed_ports"] == Ports(BlogPorts)
    requires "external" in m && m["external"] == Bool(false)
    requires "http_port" in m && m["http_port"] == Int(8081)
    requires "https_port" in m && m["https_port"] == Int(4431)
    requires if domain == "" then "domain" !in m else "domain" in m && m["domain"] == Str(domain)
    requires "volumes" !in m && "envs" !in m && "command" !in m && "data" !in m
    requires m.Keys <= ContainerFields
    ensures Bind(m) == Success(BlogSpec.(domain := domain))
  {
    assert StrArg(m, "name", "") == Success("blog");
    assert StrArg(m, "base", "ubuntu") == Success("nekroze/wordpress");
    assert PortsArg(m, "exposed_ports") == Success(BlogPorts);
    assert BoolArg(m, "external", true) == Success(false);
    assert PortArg(m, "http_port") == Success(8081);
    assert PortArg(m, "https_port") == Success(4431);
    assert StrArg(m, "domain", "") == Success(domain);
  }

  lemma BlogBinds()
    ensures Bind(BlogConfig) == Success(BlogSpec)
    ensures Bind(BlogEntry) == Success(BlogSpec.(domain := ""))
  {
    BlogLikeBinds(BlogConfig, "nekroze.com");
    BlogLikeBinds(BlogEntry, "");
  }

  /** The image name of the blog's base is the part after the namespace. */
  lemma BlogImage()
    ensures LastSegment("nekroze/wordpress", '/') == "wordpress"
  {
    assert "nekroze/wordpress" == "nekroze" + "/" + "wordpress";
    LastSegmentAfter("nekroze", '/', "wordpress");
  }

  /** The blog's host name, spelled out. */
  lemma BlogFqdn()
    ensures "blog" + "." + "nekroze.com" == "blog.nekroze.com"
  {
  }

  /** The blog's discovery name, spelled out. */
  lemma BlogSkyFqdn()
    ensures "blog" + "." + "wordpress" + DiscoveryZone == "blog.wordpress.containers.drydock"
  {
  }

  /** A container named `blog` with the blog's base, bound to `nekroze.com`. */
  lemma BlogIdentity(c: Container)
    requires c.name == "blog" && c.base == "nekroze/wordpress"
    ensures SetDomain(c, "nekroze.com").fqdn == "blog.nekroze.com"
    ensures SetDomain(c, "nekroze.com").skyfqdn == "blog.wordpress.containers.drydock"
  {
    BlogImage();
    BlogFqdn();
    BlogSkyFqdn();
  }

  /** The blog constructs with the identity the tests expect. */
  lemma BlogConstruction()
    ensures var c := NewContainer(BlogSpec);
      && c.fqdn == "blog.nekroze.com"
      && c.skyfqdn == "blog.wordpress.containers.drydock"
  {
    var unbound := Container("blog", "nekroze/wordpress", "", "", "", BlogPorts, false, 8081, 4431,
                             [], [], "", false);
    assert NewContainer(BlogSpec) == SetDomain(unbound, "nekroze.com");
    BlogIdentity(unbound);
  }

  /** The blog's name and host flags, spelled out. */
  lemma BlogFlags()
    ensures "--name " + "blog" == "--name blog"
    ensures "-h " + "blog.nekroze.com" == "-h blog.nekroze.com"
  {
  }

  /** The launch arguments of any container with the blog's fields. */
  lemma BlogLikeArgs(c: Container)
    requires c.name == "blog" && c.fqdn == "blog.nekroze.com" && c.base == "nekroze/wordpress"
    requires !c.data && c.volumes == [] && c.envs == [] && c.command == ""
    requires PortMaps(c.exposed_ports) == ["-p 22:22", "-p 2222:222"]
    ensures DockerArgs(c) ==
      ["docker run -d --dns 172.17.42.1", "--name blog", "-h blog.nekroze.com",
       "-p 22:22", "-p 2222:222", "-v /etc/timezone:/etc/timezone:ro", "nekroze/wordpress"]
  {
    DockerArgsPlain(c);
    BlogFlags();
  }

  /** The blog's launch arguments, group by group. */
  lemma BlogDockerArgs()
    ensures DockerArgs(NewContainer(BlogSpec)) ==
      ["docker run -d --dns 172.17.42.1", "--name blog", "-h blog.nekroze.com",
       "-p 22:22", "-p 2222:222", "-v /etc/timezone:/etc/timezone:ro", "nekroze/wordpress"]
  {
    var c := NewContainer(BlogSpec);
    assert PortMaps(c.exposed_ports) == ["-p 22:22", "-p 2222:222"] by {
      BlogPortMaps();
    }
    assert c.fqdn == "blog.nekroze.com" by {
      BlogConstruction();
    }
    BlogLikeArgs(c);
  }

  /** Joining seven arguments puts one space between neighbours. */
  lemma JoinSeven(a0: string, a1: string, a2: string, a3: string, a4: string, a5: string, a6: string)
    ensures Join([a0, a1, a2, a3, a4, a5, a6], " ")
      == a0 + " " + a1 + " " + a2 + " " + a3 + " " + a4 + " " + a5 + " " + a6
  {
    JoinCons(a5, [a6], " ");
    JoinCons(a4, [a5, a6], " ");
    JoinCons(a3, [a4, a5, a6], " ");
    JoinCons(a2, [a3, a4, a5, a6], " ");
    JoinCons(a1, [a2, a3, a4, a5, a6], " ");
    JoinCons(a0, [a1, a2, a3, a4, a5, a6], " ");
  }

  /** The blog's full launch command. */
  lemma BlogDockerCommand()
    ensures DockerCommand(NewContainer(BlogSpec))
      == "docker run -d --dns 172.17.42.1" + " " + "--name blog" + " " + "-h blog.nekroze.com"
      + " " + "-p 22:22" + " " + "-p 2222:222" + " " + "-v /etc/timezone:/etc/timezone:ro"
      + " " + "nekroze/wordpress"
  {
    BlogDockerArgs();
    JoinSeven("docker run -d --dns 172.17.42.1", "--name blog", "-h blog.nekroze.com",
              "-p 22:22", "-p 2222:222", "-v /etc/timezone:/etc/timezone:ro", "nekroze/wordpress");
  }

  /** The meta container of the tests: default base and command, one child. */
  const NekrozeSpec := DefaultMetaSpec("nekroze.com-1", "nekroze.com")

  /** The blog as the meta builds it: constructed without a domain of its own. */
  const BlogChild := NewContainer(BlogSpec.(domain := ""))

  /** The blog's entry needs no fetching and builds the bare blog. */
  lemma BlogEntryBuilds()
    ensures ChildOf(BlogEntry, map[]) == Success(BlogChild)
  {
    assert Resolve(BlogEntry, map[]) == Success(BlogEntry) by {
      assert SpecificationKey !in BlogEntry;
    }
    BlogBinds();
  }

  /** The meta's one entry builds the bare blog. */
  lemma NekrozeChildren()
    ensures BuildChildren([BlogEntry], map[]) == Success([BlogChild])
  {
    BlogEntryBuilds();
    SingleEntryBuilds(BlogEntry, map[], BlogChild);
  }

  /** Constructing the meta seeds it and adds the blog. */
  lemma NekrozeBuilds()
    ensures NewMeta(NekrozeSpec, [BlogEntry], map[]) == Success(AddContainer(Seed(NekrozeSpec), BlogChild))
  {
    NekrozeChildren();
    SingleChildMeta(NekrozeSpec, [BlogEntry], map[], BlogChild);
  }

  /** The blog, adopted by the meta, takes the meta's domain. */
  lemma BlogAdopted()
    ensures var c := Adopt("nekroze.com", BlogChild);
      && c.domain == "nekroze.com"
      && c.fqdn == "blog.nekroze.com"
      && c.skyfqdn == "blog.wordpress.containers.drydock"
      && c.exposed_ports == BlogPorts
  {
    assert BlogChild.domain == "" && BlogChild.name == "blog" && BlogChild.base == "nekroze/wordpress";
    BlogIdentity(BlogChild);
  }

  /** What adding a child named `blog` to a fresh `nekroze.com` meta leaves. */
  lemma NekrozeFields(seed: Meta, child: Container)
    requires seed.domain == "nekroze.com" && seed.containers == map[] && seed.reverse_proxies == map[]
    requires seed.exposed_ports == map[0 := "443"]
    requires child.name == "blog"
    requires var c := Adopt("nekroze.com", child);
      && c.domain == "nekroze.com" && c.fqdn == "blog.nekroze.com"
      && c.skyfqdn == "blog.wordpress.containers.drydock" && c.exposed_ports == BlogPorts
    ensures var m := AddContainer(seed, child);
      && m.containers.Keys == {"blog"}
      && m.containers["blog"].domain == "nekroze.com"
      && m.containers["blog"].fqdn == "blog.nekroze.com"
      && m.containers["blog"].skyfqdn == "blog.wordpress.containers.drydock"
      && m.reverse_proxies.Keys == {"blog.nekroze.com"}
      && m.exposed_ports == map[0 := "443", 22 := "22", 2222 := "222"]
  {
    var m, c := AddContainer(seed, child), Adopt("nekroze.com", child);
    assert m.containers == map["blog" := c];
    assert m.exposed_ports == map[0 := "443"] + BlogPorts;
    NekrozePorts();
    NekrozeProxyKey();
  }

  lemma NekrozePorts()
    ensures map[0 := "443"] + BlogPorts == map[0 := "443", 22 := "22", 2222 := "222"]
  {
  }

  lemma NekrozeProxyKey()
    ensures ProxyKey("blog", "nekroze.com") == "blog.nekroze.com"
  {
  }

  /**
   * The child stored in the meta keeps the fields its entry configured:
   * name, base, ports and the proxy settings.
   */
  lemma NekrozeChildFields()
    ensures NewMeta(NekrozeSpec, [BlogEntry], map[]).Success?
    ensures "blog" in NewMeta(NekrozeSpec, [BlogEntry], map[]).value.containers
    ensures var c := NewMeta(NekrozeSpec, [BlogEntry], map[]).value.containers["blog"];
      && c.name == "blog" && c.base == "nekroze/wordpress"
      && c.exposed_ports == BlogPorts
      && c.http_port == 8081 && c.https_port == 4431 && !c.external
  {
    NekrozeConstruction();
    NekrozeBuilds();
    BlogAdopted();
    assert AddContainer(Seed(NekrozeSpec), BlogChild).containers["blog"] == Adopt(Seed(NekrozeSpec).domain, BlogChild);
  }

  /**
   * The meta is named as configured, its fqdn is its domain, and its one
   * child took the meta's domain; its own proxy ports, both 0, publish
   * only the https target.
   */
  lemma NekrozeConstruction()
    ensures NewMeta(NekrozeSpec, [BlogEntry], map[]).Success?
    ensures var m := NewMeta(NekrozeSpec, [BlogEntry], map[]).value;
      && m.name == "nekroze.com-1" && m.domain == "nekroze.com" && m.fqdn == "nekroze.com"
      && m.containers.Keys == {"blog"}
      && m.containers["blog"].domain == "nekroze.com"
      && m.containers["blog"].fqdn == "blog.nekroze.com"
      && m.containers["blog"].skyfqdn == "blog.wordpress.containers.drydock"
      && m.reverse_proxies.Keys == {"blog.nekroze.com"}
      && m.exposed_ports == map[0 := "443", 22 := "22", 2222 := "222"]
  {
    NekrozeBuilds();
    var seed := Seed(NekrozeSpec);
    assert seed.exposed_ports == map[0 := "443"] by {
      DefaultSeedPorts("nekroze.com-1", "nekroze.com");
    }
    BlogAdopted();
    NekrozeFields(seed, BlogChild);
  }
}

=== FILE: maps.dfy ===
/** Ordered writes into a map, as a sequence of `d[k] = v` statements performs them. */
module Maps {
  /** Writes the entries into `m` one by one; a later entry overwrites an earlier one with the same key. */
  function Overwrite<K(==), V>(m: map<K, V>, entries: seq<(K, V)>): map<K, V>
    decreases |entries|
  {
    if entries == [] then m else Overwrite(m[entries[0].0 := entries[0].1], entries[1..])
  }

  /** The keys the entries write. */
  function KeysOf<K(==), V>(entries: seq<(K, V)>): set<K> {
    set i | 0 <= i < |entries| :: entries[i].0
  }

  /** No later entry writes the key of the entry at `i`. */
  predicate LastOfKey<K(==), V>(entries: seq<(K, V)>, i: nat)
    requires i < |entries|
  {
    forall j | i < j < |entries| :: entries[j].0 != entries[i].0
  }

  /**
   * After the writes, the keys are the old ones plus the written ones; a
   * written key holds the value of its last write; an unwritten key keeps
   * its old value.
   */
  lemma {:induction false} OverwriteContents<K, V>(m: map<K, V>, entries: seq<(K, V)>)
    ensures Overwrite(m, entries).Keys == m.Keys + KeysOf(entries)
    ensures forall i | 0 <= i < |entries| && LastOfKey(entries, i) ::
      Overwrite(m, entries)[entries[i].0] == entries[i].1
    ensures forall k | k in m && k !in KeysOf(entries) :: Overwrite(m, entries)[k] == m[k]
    decreases |entries|
  {
    if entries != [] {
      var first, rest := entries[0], entries[1..];
      var m1 := m[first.0 := first.1];
      OverwriteContents(m1, rest);
      assert KeysOf(entries) == {first.0} + KeysOf(rest) by {
        forall x | x in KeysOf(entries) ensures x in {first.0} + KeysOf(rest) {
          var i :| 0 <= i < |entries| && entries[i].0 == x;
          if i > 0 { assert rest[i - 1].0 == x; }
        }
        forall x | x in KeysOf(rest) ensures x in KeysOf(entries) {
          var i :| 0 <= i < |rest| && rest[i].0 == x;
          assert entries[i + 1].0 == x;
        }
      }
      forall i | 0 <= i < |entries| && LastOfKey(entries, i)
        ensures Overwrite(m, entries)[entries[i].0] == entries[i].1
      {
        if i == 0 {
          assert first.0 !in KeysOf(rest) by {
            forall x | x in KeysOf(rest) ensures x != first.0 {
              var j :| 0 <= j < |rest| && rest[j].0 == x;
              assert entries[j + 1] == rest[j];
            }
          }
        } else {
          assert rest[i - 1] == entries[i];
          assert LastOfKey(rest, i - 1) by {
            forall j | i - 1 < j < |rest| ensures rest[j].0 != rest[i - 1].0 {
              assert rest[j] == entries[j + 1];
            }
          }
        }
      }
    }
  }

  /** Entries with pairwise distinct keys: every entry survives the writes. */
  lemma OverwriteDistinct<K, V>(m: map<K, V>, entries: seq<(K, V)>)
    requires forall i, j | 0 <= i < j < |entries| :: entries[i].0 != entries[j].0
    ensures Overwrite(m, entries).Keys == m.Keys + KeysOf(entries)
    ensures forall i | 0 <= i < |entries| :: Overwrite(m, entries)[entries[i].0] == entries[i].1
  {
    OverwriteContents(m, entries);
    forall i | 0 <= i < |entries|
      ensures LastOfKey(entries, i)
    {
    }
  }

  /** Maps with the same keys that agree at every key are equal. */
  lemma MapsAgree<K, V>(x: map<K, V>, y: map<K, V>)
    requires x.Keys == y.Keys
    requires forall k | k in x :: x[k] == y[k]
    ensures x == y
  {
  }
}

=== FILE: meta.dfy ===
/**
 * The meta container: a privileged container that runs the others. It
 * collects child containers, merges their published ports, keeps one
 * reverse-proxy entry per child and renders the aggregate proxy
 * configuration and its own launch command.
 */
module Metas {
  import opened Wrappers
  import opened Sorting
  import opened Strings
  import opened Containers
  import opened Specs
  import opened Maps

  /** A reverse-proxy entry: where the proxy sends traffic for one child. */
  datatype Proxy = Proxy(skyfqdn: string, external: bool, http: nat, https: nat)

  function ProxyOf(c: Container): (p: Proxy)
    ensures p.skyfqdn == c.skyfqdn && p.external == c.external
    ensures p.http == c.http_port && p.https == c.https_port
  {
    Proxy(c.skyfqdn, c.external, c.http_port, c.https_port)
  }

  /** The meta container's constructor arguments with their defaults applied. */
  datatype MetaSpec = MetaSpec(
    name: string,
    domain: string,
    base: string,
    command: string,
    exposed_ports: map<nat, string>,
    external: bool,
    http_port: nat,
    https_port: nat,
    volumes: seq<string>,
    envs: seq<(string, string)>,
    data: bool)

  const MetaBase := "nekroze/drydock"
  const SuperviseCommand := "drydock supervise /drydock.yaml"

  function DefaultMetaSpec(name: string, domain: string): (s: MetaSpec)
    ensures s.name == name && s.domain == domain
    ensures s.base == MetaBase && s.command == SuperviseCommand
    ensures s.exposed_ports == map[] && s.volumes == [] && s.envs == []
    ensures s.external && !s.data && s.http_port == 0 && s.https_port == 0
  {
    MetaSpec(name, domain, MetaBase, SuperviseCommand, map[], true, 0, 0, [], [], false)
  }

  /**
   * A meta container. Unlike a leaf container it has no discovery name:
   * its own domain update sets only `domain` and `fqdn`.
   */
  datatype Meta = Meta(
    name: string,
    base: string,
    command: string,
    domain: string,
    fqdn: string,
    exposed_ports: map<nat, string>,
    external: bool,
    http_port: nat,
    https_port: nat,
    volumes: seq<string>,
    envs: seq<(string, string)>,
    data: bool,
    containers: map<string, Container>,
    reverse_proxies: map<string, Proxy>)

  /** The targets the meta's own proxy ports are published to. */
  const HttpTarget := "80"
  const HttpsTarget := "443"

  /** The key of a child's reverse-proxy entry: the child's name under the meta's domain. */
  function ProxyKey(name: string, domain: string): string {
    name + "." + domain
  }

  lemma ProxyKeyInjective(a: string, b: string, domain: string)
    requires ProxyKey(a, domain) == ProxyKey(b, domain)
    ensures a == b
  {
    assert |a| == |b|;
    assert ProxyKey(a, domain)[..|a|] == a;
    assert ProxyKey(b, domain)[..|b|] == b;
  }

  /** The proxy keys of a set of child names. */
  function ProxyKeys(names: set<string>, domain: string): set<string> {
    set n | n in names :: ProxyKey(n, domain)
  }

  lemma ProxyKeysInsert(names: set<string>, n: string, domain: string)
    ensures ProxyKeys(names + {n}, domain) == ProxyKeys(names, domain) + {ProxyKey(n, domain)}
  {
  }

  // --------------------------------------------------------------- invariant

  /** What the meta keeps true about one registered child. */
  ghost predicate ChildValid(m: Meta, n: string)
    requires n in m.containers
  {
    var c := m.containers[n];
    && c.name == n
    && HasIdentity(c)
    && (m.domain != "" ==> c.domain != "")
    && c.exposed_ports.Keys <= m.exposed_ports.Keys
    && ProxyKey(n, m.domain) in m.reverse_proxies
    && m.reverse_proxies[ProxyKey(n, m.domain)] == ProxyOf(c)
  }

  /**
   * The meta's invariant: its fqdn is its domain, its own proxy ports are
   * published, every child is registered under its own name with its
   * identity intact and its ports published, and there is exactly one
   * reverse-proxy entry per child.
   */
  ghost predicate Valid(m: Meta) {
    && m.fqdn == m.domain
    && m.http_port in m.exposed_ports
    && m.https_port in m.exposed_ports
    && (forall n {:trigger ChildValid(m, n)} | n in m.containers :: ChildValid(m, n))
    && m.reverse_proxies.Keys == ProxyKeys(m.containers.Keys, m.domain)
  }

  // ------------------------------------------------------------ construction

  /**
   * The meta before any child is added: the base constructor's fields,
   * `fqdn` set to the domain, and the proxy ports published, https last.
   */
  function Seed(spec: MetaSpec): (m: Meta)
    ensures m.name == spec.name && m.domain == spec.domain && m.fqdn == spec.domain
    ensures m.base == spec.base && m.command == spec.command
    ensures m.external == spec.external && m.data == spec.data
    ensures m.http_port == spec.http_port && m.https_port == spec.https_port
    ensures m.volumes == spec.volumes && m.envs == spec.envs
    ensures m.containers == map[] && m.reverse_proxies == map[]
    ensures m.exposed_ports.Keys == spec.exposed_ports.Keys + {spec.http_port, spec.https_port}
    ensures m.exposed_ports[spec.https_port] == HttpsTarget
    ensures spec.http_port != spec.https_port ==> m.exposed_ports[spec.http_port] == HttpTarget
    ensures forall k | k in spec.exposed_ports && k != spec.http_port && k != spec.https_port ::
      m.exposed_ports[k] == spec.exposed_ports[k]
    ensures Valid(m)
  {
    Meta(spec.name, spec.base, spec.command, spec.domain, spec.domain,
         spec.exposed_ports[spec.http_port := HttpTarget][spec.https_port := HttpsTarget],
         spec.external, spec.http_port, spec.https_port, spec.volumes, spec.envs, spec.data,
         map[], map[])
  }

  /** With the default ports both proxy ports are 0, and the https entry overwrites the http one. */
  lemma DefaultSeedPorts(name: string, domain: string)
    ensures Seed(DefaultMetaSpec(name, domain)).exposed_ports == map[0 := HttpsTarget]
  {
  }

  /** The meta's own domain update: `domain` and `fqdn` both become `domain`, nothing else changes. */
  function SetMetaDomain(m: Meta, domain: string): (r: Meta)
    ensures r.domain == domain && r.fqdn == domain
    ensures r.(domain := m.domain, fqdn := m.fqdn) == m
  {
    m.(domain := domain, fqdn := domain)
  }

  /** Updating the domain of a meta that has no children yet keeps it valid. */
  lemma SetMetaDomainValid(m: Meta, domain: string)
    requires Valid(m) && m.containers == map[]
    ensures Valid(SetMetaDomain(m, domain))
  {
  }

  /**
   * The child as the meta stores it: it takes the meta's domain only when
   * its own is empty and the meta's is not.
   */
  function Adopt(domain: string, c: Container): (r: Container)
    ensures c.domain != "" ==> r == c
    ensures c.domain == "" ==> r.domain == domain
    ensures r.(domain := c.domain, fqdn := c.fqdn, skyfqdn := c.skyfqdn) == c
  {
    if c.domain == "" && domain != "" then SetDomain(c, domain) else c
  }

  /** An adopted child keeps its identity equations, and has a domain whenever the meta does. */
  lemma AdoptKeepsIdentity(domain: string, c: Container)
    requires HasIdentity(c)
    ensures HasIdentity(Adopt(domain, c))
    ensures domain != "" ==> Adopt(domain, c).domain != ""
  {
  }

  /**
   * Registers a child: it is stored under its own name (replacing any
   * child of that name), its ports are merged into the meta's with the
   * child winning on collisions, and its reverse-proxy entry is written.
   */
  function AddContainer(m: Meta, c: Container): (r: Meta)
    ensures r.containers.Keys == m.containers.Keys + {c.name}
    ensures r.containers[c.name] == Adopt(m.domain, c)
    ensures r.exposed_ports.Keys == m.exposed_ports.Keys + Adopt(m.domain, c).exposed_ports.Keys
    ensures r.reverse_proxies.Keys == m.reverse_proxies.Keys + {ProxyKey(c.name, m.domain)}
    ensures r.reverse_proxies[ProxyKey(c.name, m.domain)] == ProxyOf(Adopt(m.domain, c))
    ensures r.(containers := m.containers, exposed_ports := m.exposed_ports,
               reverse_proxies := m.reverse_proxies) == m
  {
    var child := Adopt(m.domain, c);
    m.(containers := m.containers[c.name := child],
       exposed_ports := m.exposed_ports + child.exposed_ports,
       reverse_proxies := m.reverse_proxies[ProxyKey(c.name, m.domain) := ProxyOf(child)])
  }

  /**
   * Nothing else in the registries changes: other children and other proxy
   * entries are kept, and the child's port targets override the meta's.
   */
  lemma AddContainerKeepsOthers(m: Meta, c: Container)
    ensures var r, child := AddContainer(m, c), Adopt(m.domain, c);
      && (forall n | n in m.containers && n != c.name :: r.containers[n] == m.containers[n])
      && (forall k | k in m.reverse_proxies && k != ProxyKey(c.name, m.domain) ::
            r.reverse_proxies[k] == m.reverse_proxies[k])
      && (forall k | k in child.exposed_ports :: r.exposed_ports[k] == child.exposed_ports[k])
      && (forall k | k in m.exposed_ports && k !in child.exposed_ports ::
            r.exposed_ports[k] == m.exposed_ports[k])
  {
  }

  /** Adding a child with its identity intact keeps the meta valid. */
  lemma AddContainerValid(m: Meta, c: Container)
    requires Valid(m) && HasIdentity(c)
    ensures Valid(AddContainer(m, c))
  {
    var r := AddContainer(m, c);
    AddContainerKeepsOthers(m, c);
    AdoptKeepsIdentity(m.domain, c);
    ProxyKeysInsert(m.containers.Keys, c.name, m.domain);
    forall n | n in r.containers
      ensures ChildValid(r, n)
    {
      if n != c.name {
        assert ChildValid(m, n);
        if ProxyKey(n, m.domain) == ProxyKey(c.name, m.domain) {
          ProxyKeyInjective(n, c.name, m.domain);
        }
      }
    }
  }

  /** A later child's port target replaces an earlier one's on the same external port. */
  lemma PortsLaterWin(m: Meta, a: Container, b: Container, k: nat)
    requires k in a.exposed_ports && k in b.exposed_ports
    ensures AddContainer(AddContainer(m, a), b).exposed_ports[k] == b.exposed_ports[k]
  {
    assert Adopt(m.domain, b).exposed_ports == b.exposed_ports;
  }

  /** A child's proxy entry is keyed by its name under the meta's domain, whatever the child's own domain. */
  lemma ProxyKeyIgnoresChildDomain(m: Meta, c: Container)
    requires c.domain != "" && c.domain != m.domain
    ensures ProxyKey(c.name, m.domain) in AddContainer(m, c).reverse_proxies
    ensures AddContainer(m, c).containers[c.name].domain == c.domain
  {
  }

  /** Adds children one by one, in list order. */
  function AddAll(m: Meta, cs: seq<Container>): (r: Meta)
    ensures r.(containers := m.containers, exposed_ports := m.exposed_ports,
               reverse_proxies := m.reverse_proxies) == m
    ensures m.containers.Keys <= r.containers.Keys
    ensures m.exposed_ports.Keys <= r.exposed_ports.Keys
    ensures m.reverse_proxies.Keys <= r.reverse_proxies.Keys
    decreases |cs|
  {
    if cs == [] then m else AddAll(AddContainer(m, cs[0]), cs[1..])
  }

  /** The names of a list of children. */
  function Names(cs: seq<Container>): set<string> {
    set i | 0 <= i < |cs| :: cs[i].name
  }

  /** No later child in the list shares the name of the child at `i`. */
  predicate LastOfName(cs: seq<Container>, i: nat)
    requires i < |cs|
  {
    forall j | i < j < |cs| :: cs[j].name != cs[i].name
  }

  /** The registry writes adding `cs` performs: each child, adopted, under its name. */
  function Registrations(domain: string, cs: seq<Container>): (r: seq<(string, Container)>)
    ensures |r| == |cs|
    ensures forall i | 0 <= i < |cs| :: r[i] == (cs[i].name, Adopt(domain, cs[i]))
  {
    seq(|cs|, i requires 0 <= i < |cs| => (cs[i].name, Adopt(domain, cs[i])))
  }

  /** Adding a list of children performs exactly its registrations, in list order. */
  lemma {:induction false} AddAllRegisters(m: Meta, cs: seq<Container>)
    ensures AddAll(m, cs).containers == Overwrite(m.containers, Registrations(m.domain, cs))
    decreases |cs|
  {
    if cs != [] {
      var m1, rest := AddContainer(m, cs[0]), cs[1..];
      var regs := Registrations(m.domain, cs);
      assert AddAll(m, cs) == AddAll(m1, rest);
      AddAllRegisters(m1, rest);
      assert regs[1..] == Registrations(m1.domain, rest);
      assert m1.containers == m.containers[regs[0].0 := regs[0].1];
    }
  }

  /** The keys a list of children registers are its names. */
  lemma RegisteredNames(domain: string, cs: seq<Container>)
    ensures KeysOf(Registrations(domain, cs)) == Names(cs)
  {
    var regs := Registrations(domain, cs);
    forall x | x in KeysOf(regs) ensures x in Names(cs) {
      var i :| 0 <= i < |regs| && regs[i].0 == x;
      assert cs[i].name == x;
    }
    forall x | x in Names(cs) ensures x in KeysOf(regs) {
      var i :| 0 <= i < |cs| && cs[i].name == x;
      assert regs[i].0 == x;
    }
  }

  /** Adding a list of children registers exactly the old names and the listed ones. */
  lemma {:induction false} AddAllNames(m: Meta, cs: seq<Container>)
    ensures AddAll(m, cs).containers.Keys == m.containers.Keys + Names(cs)
  {
    AddAllRegisters(m, cs);
    OverwriteContents(m.containers, Registrations(m.domain, cs));
    RegisteredNames(m.domain, cs);
  }

  /** A listed name ends up holding the adopted form of the last child of that name. */
  lemma {:induction false} AddAllLastWins(m: Meta, cs: seq<Container>, i: nat)
    requires i < |cs| && LastOfName(cs, i)
    ensures cs[i].name in AddAll(m, cs).containers
    ensures AddAll(m, cs).containers[cs[i].name] == Adopt(m.domain, cs[i])
  {
    var regs := Registrations(m.domain, cs);
    AddAllRegisters(m, cs);
    OverwriteContents(m.containers, regs);
    assert LastOfKey(regs, i) by {
      forall j | i < j < |regs| ensures regs[j].0 != regs[i].0 {
        assert cs[j].name != cs[i].name;
      }
    }
    assert regs[i] == (cs[i].name, Adopt(m.domain, cs[i]));
  }

  /** A name that is not listed keeps its old child. */
  lemma {:induction false} AddAllKeepsUnlisted(m: Meta, cs: seq<Container>, n: string)
    requires n in m.containers && n !in Names(cs)
    ensures n in AddAll(m, cs).containers && AddAll(m, cs).containers[n] == m.containers[n]
  {
    AddAllRegisters(m, cs);
    OverwriteContents(m.containers, Registrations(m.domain, cs));
    RegisteredNames(m.domain, cs);
  }

  /**
   * What adding a list of children leaves in the registry: the old names
   * plus the listed ones; a listed name holds the adopted form of the last
   * child of that name; an unlisted name keeps its old child.
   */
  lemma {:induction false} AddAllContainers(m: Meta, cs: seq<Container>)
    ensures AddAll(m, cs).containers.Keys == m.containers.Keys + Names(cs)
    ensures forall i | 0 <= i < |cs| && LastOfName(cs, i) ::
      AddAll(m, cs).containers[cs[i].name] == Adopt(m.domain, cs[i])
    ensures forall n | n in m.containers && n !in Names(cs) ::
      AddAll(m, cs).containers[n] == m.containers[n]
  {
    AddAllNames(m, cs);
    forall i | 0 <= i < |cs| && LastOfName(cs, i)
      ensures AddAll(m, cs).containers[cs[i].name] == Adopt(m.domain, cs[i])
    {
      AddAllLastWins(m, cs, i);
    }
    forall n | n in m.containers && n !in Names(cs)
      ensures AddAll(m, cs).containers[n] == m.containers[n]
    {
      AddAllKeepsUnlisted(m, cs, n);
    }
  }

  /** The children's names are pairwise distinct. */
  predicate DistinctNames(cs: seq<Container>) {
    forall i, j | 0 <= i < j < |cs| :: cs[i].name != cs[j].name
  }

  /** Lists holding the same children name the same children. */
  lemma SameNames(a: seq<Container>, b: seq<Container>)
    requires forall x :: x in a <==> x in b
    ensures Names(a) == Names(b)
  {
    forall x | x in Names(a) ensures x in Names(b) {
      var i :| 0 <= i < |a| && a[i].name == x;
      assert a[i] in b;
      var j :| 0 <= j < |b| && b[j] == a[i];
    }
    forall x | x in Names(b) ensures x in Names(a) {
      var j :| 0 <= j < |b| && b[j].name == x;
      assert b[j] in a;
      var i :| 0 <= i < |a| && a[i] == b[j];
    }
  }

  /** A listed name holds the same child whichever of two listings of distinct names was added. */
  lemma {:induction false} SameListedChild(m: Meta, a: seq<Container>, b: seq<Container>, n: string)
    requires DistinctNames(a) && DistinctNames(b)
    requires forall x :: x in a <==> x in b
    requires n in Names(a)
    ensures n in AddAll(m, a).containers && n in AddAll(m, b).containers
    ensures AddAll(m, a).containers[n] == AddAll(m, b).containers[n]
  {
    var i :| 0 <= i < |a| && a[i].name == n;
    assert a[i] in b;
    var j :| 0 <= j < |b| && b[j] == a[i];
    AddAllLastWins(m, a, i);
    AddAllLastWins(m, b, j);
  }

  /**
   * With distinct names the registry does not depend on the order the
   * children are listed in.
   */
  lemma {:induction false} AddAllOrderIndependent(m: Meta, a: seq<Container>, b: seq<Container>)
    requires DistinctNames(a) && DistinctNames(b)
    requires forall x :: x in a <==> x in b
    ensures AddAll(m, a).containers == AddAll(m, b).containers
  {
    var ra, rb := AddAll(m, a).containers, AddAll(m, b).containers;
    SameNames(a, b);
    AddAllNames(m, a);
    AddAllNames(m, b);
    forall n | n in ra
      ensures ra[n] == rb[n]
    {
      SameChild(m, a, b, n);
    }
    MapsAgree(ra, rb);
  }

  /** Every registered name holds the same child whichever of two listings of distinct names was added. */
  lemma {:induction false} SameChild(m: Meta, a: seq<Container>, b: seq<Container>, n: string)
    requires DistinctNames(a) && DistinctNames(b)
    requires forall x :: x in a <==> x in b
    requires n in AddAll(m, a).containers
    ensures n in AddAll(m, b).containers && AddAll(m, a).containers[n] == AddAll(m, b).containers[n]
  {
    if n in Names(a) {
      SameListedChild(m, a, b, n);
    } else {
      SameNames(a, b);
      AddAllNames(m, a);
      AddAllKeepsUnlisted(m, a, n);
      AddAllKeepsUnlisted(m, b, n);
    }
  }

  /** Adding children with their identity intact keeps the meta valid. */
  lemma {:induction false} AddAllValid(m: Meta, cs: seq<Container>)
    requires Valid(m)
    requires forall i | 0 <= i < |cs| :: HasIdentity(cs[i])
    ensures Valid(AddAll(m, cs))
    decreases |cs|
  {
    if cs != [] {
      var m1, rest := AddContainer(m, cs[0]), cs[1..];
      assert Valid(m1) by {
        AddContainerValid(m, cs[0]);
      }
      assert forall i | 0 <= i < |rest| :: HasIdentity(rest[i]) by {
        assert forall i | 0 <= i < |rest| :: rest[i] == cs[i + 1];
      }
      assert AddAll(m, cs) == AddAll(m1, rest);
      AddAllValid(m1, rest);
    }
  }

  /** Builds one child from a `subcontainers` entry: resolve, bind, construct. */
  function ChildOf(entry: Mapping, documents: map<string, Mapping>): (r: Result<Container, SpecError>)
    ensures r.Success? ==> HasIdentity(r.value)
  {
    var resolved :- Resolve(entry, documents);
    var spec :- Bind(resolved);
    Success(NewContainer(spec))
  }

  /** An entry yields a child exactly when it resolves and binds; the child carries the bound name. */
  lemma ChildOfSucceeds(entry: Mapping, documents: map<string, Mapping>)
    ensures var r, resolved := ChildOf(entry, documents), Resolve(entry, documents);
      && (r.Success? <==> resolved.Success? && Bind(resolved.value).Success?)
      && (r.Success? ==> r.value.name == Bind(resolved.value).value.name)
      && (r.Success? ==> r.value.domain == Bind(resolved.value).value.domain)
  {
  }

  /**
   * All values of a list of results, or the error of the first failure:
   * the all-or-nothing collection of one outcome per entry.
   */
  function Collect<T, E>(rs: seq<Result<T, E>>): (r: Result<seq<T>, E>)
    ensures r.Success? <==> forall i | 0 <= i < |rs| :: rs[i].Success?
    ensures r.Success? ==> |r.value| == |rs| && forall i | 0 <= i < |rs| :: r.value[i] == rs[i].value
    ensures r.Failure? ==> exists i | 0 <= i < |rs| ::
      && rs[i].Failure? && r.error == rs[i].error
      && (forall j | 0 <= j < i :: rs[j].Success?)
    decreases |rs|
  {
    if rs == [] then Success([])
    else if rs[0].Failure? then Failure(rs[0].error)
    else
      var rest :- Collect(rs[1..]);
      Success([rs[0].value] + rest)
  }

  /** The outcome of building each entry's child, in list order. */
  function Outcomes(entries: seq<Mapping>, documents: map<string, Mapping>): (r: seq<Result<Container, SpecError>>)
    ensures |r| == |entries|
    ensures forall i | 0 <= i < |entries| :: r[i] == ChildOf(entries[i], documents)
    ensures forall i | 0 <= i < |entries| :: r[i].Success? ==> HasIdentity(r[i].value)
  {
    seq(|entries|, i requires 0 <= i < |entries| => ChildOf(entries[i], documents))
  }

  /** Builds every child, in list order; the first entry that fails stops construction. */
  function BuildChildren(entries: seq<Mapping>, documents: map<string, Mapping>): (r: Result<seq<Container>, SpecError>)
    ensures r.Success? ==> |r.value| == |entries| && forall i | 0 <= i < |entries| :: HasIdentity(r.value[i])
  {
    Collect(Outcomes(entries, documents))
  }

  /**
   * Constructs a meta container: seeds it and adds every child built from
   * `entries`. A failing entry fails the whole construction.
   */
  function NewMeta(spec: MetaSpec, entries: seq<Mapping>, documents: map<string, Mapping>): (r: Result<Meta, SpecError>)
    ensures r.Success? <==> forall i | 0 <= i < |entries| :: Outcomes(entries, documents)[i].Success?
    ensures r.Success? ==> Valid(r.value)
    ensures r.Success? ==> r.value.name == spec.name && r.value.fqdn == spec.domain
    ensures r.Success? ==> r.value.containers.Keys == Names(BuildChildren(entries, documents).value)
    ensures r.Success? ==> r.value == AddAll(Seed(spec), BuildChildren(entries, documents).value)
  {
    var children :- BuildChildren(entries, documents);
    var seed := Seed(spec);
    AddAllValid(seed, children);
    AddAllContainers(seed, children);
    Success(AddAll(seed, children))
  }

  /** A single entry that builds a child builds a list of just that child. */
  lemma SingleEntryBuilds(entry: Mapping, documents: map<string, Mapping>, child: Container)
    requires ChildOf(entry, documents) == Success(child)
    ensures BuildChildren([entry], documents) == Success([child])
  {
    var outcome: Result<Container, SpecError> := Success(child);
    assert Outcomes([entry], documents) == [outcome];
    var r := Collect([outcome]);
    assert r.Success? && |r.value| == 1 && r.value[0] == child;
    assert r.value == [child];
  }

  /** A meta whose entries build one child is its seed with that child added. */
  lemma SingleChildMeta(spec: MetaSpec, entries: seq<Mapping>, documents: map<string, Mapping>, child: Container)
    requires BuildChildren(entries, documents) == Success([child])
    ensures NewMeta(spec, entries, documents) == Success(AddContainer(Seed(spec), child))
  {
    var seed := Seed(spec);
    assert AddAll(seed, [child]) == AddAll(AddContainer(seed, child), []);
  }

  /**
   * Children are added in list order: in a constructed meta, a name holds
   * the child built from the last entry of that name, adopted into the
   * meta's domain.
   */
  lemma NewMetaLastEntryWins(spec: MetaSpec, entries: seq<Mapping>, documents: map<string, Mapping>, i: nat, child: Container)
    requires forall k | 0 <= k < |entries| :: ChildOf(entries[k], documents).Success?
    requires i < |entries| && ChildOf(entries[i], documents) == Success(child)
    requires forall j | i < j < |entries| ::
      !(ChildOf(entries[j], documents).Success? && ChildOf(entries[j], documents).value.name == child.name)
    ensures child.name in NewMeta(spec, entries, documents).value.containers
    ensures NewMeta(spec, entries, documents).value.containers[child.name] == Adopt(spec.domain, child)
  {
    var outcomes := Outcomes(entries, documents);
    assert forall k | 0 <= k < |entries| :: outcomes[k].Success?;
    var cs := BuildChildren(entries, documents).value;
    assert forall k | 0 <= k < |entries| :: cs[k] == outcomes[k].value;
    assert cs[i] == child;
    assert LastOfName(cs, i) by {
      forall j | i < j < |cs| ensures cs[j].name != cs[i].name {
        assert outcomes[j] == ChildOf(entries[j], documents);
      }
    }
    AddAllLastWins(Seed(spec), cs, i);
  }

  // ---------------------------------------------------------------- rendering

  /** The children's proxy configurations, in the order `names` lists them. */
  function ConfigsOf(m: Meta, names: seq<string>, render: Renderer): (r: seq<string>)
    requires forall i | 0 <= i < |names| :: names[i] in m.containers
    ensures |r| == |names|
    ensures forall i | 0 <= i < |names| :: r[i] == NginxConfig(m.containers[names[i]], render)
  {
    seq(|names|, i requires 0 <= i < |names| => NginxConfig(m.containers[names[i]], render))
  }

  /** The children's names in ascending order. */
  function ChildNames(m: Meta): (names: seq<string>)
    ensures forall i | 0 <= i < |names| :: names[i] in m.containers
    ensures forall n | n in m.containers :: n in names
    ensures |names| == |m.containers|
    ensures Ascending(names, LexLess)
  {
    SortedStrings(m.containers.Keys)
  }

  /** The aggregate proxy configuration: every child's, in ascending name order, one per line. */
  function GetNginxConfig(m: Meta, render: Renderer): (r: string)
    ensures m.containers == map[] ==> r == ""
    ensures forall n | n in m.containers && m.containers.Keys == {n} ::
      r == NginxConfig(m.containers[n], render)
  {
    var names := ChildNames(m);
    Join(ConfigsOf(m, names, render), "\n")
  }

  /**
   * Any enumeration of the children's names in ascending order yields the
   * aggregate configuration: the output is fixed by the registry alone.
   */
  lemma {:induction false} NginxConfigIsSortedJoin(m: Meta, names: seq<string>, render: Renderer)
    requires Ascending(names, LexLess)
    requires forall n :: n in names <==> n in m.containers
    ensures GetNginxConfig(m, render) == Join(ConfigsOf(m, names, render), "\n")
  {
    LexLessIsStrictTotalOrder();
    var sorted := ChildNames(m);
    assert Ascending(sorted, LexLess);
    AscendingUnique(sorted, names, LexLess);
  }

  /** Children listed in any order, with distinct names, give the same aggregate configuration. */
  lemma {:induction false} NginxOrderIndependent(m: Meta, a: seq<Container>, b: seq<Container>, render: Renderer)
    requires DistinctNames(a) && DistinctNames(b)
    requires forall x :: x in a <==> x in b
    ensures GetNginxConfig(AddAll(m, a), render) == GetNginxConfig(AddAll(m, b), render)
  {
    AddAllOrderIndependent(m, a, b);
  }

  const RunPrivileged := "docker run --privileged"

  /** The mount that shares the meta's proxy site directory with the host. */
  function SitesMount(fqdn: string): string {
    "-v /var/lib/" + fqdn + "/etc/nginx/sites-enabled:/etc/nginx/sites-enabled"
  }

  /**
   * The argument list of the meta's launch command. Writing P and V for
   * the number of port maps and of volumes: run flags, `--name <fqdn>`,
   * `-h <fqdn>` | P port maps | sites mount | timezone mount | V volume
   * maps | base. It carries no env args, data mount or command.
   */
  function MetaDockerArgs(m: Meta): seq<string> {
    [RunPrivileged, "--name " + m.fqdn, "-h " + m.fqdn] + MetaArgsAfterHead(m)
  }

  /** The argument list's length counts every group, and it starts with the run flags, name and hostname. */
  lemma MetaDockerArgsLayout(m: Meta)
    ensures var r := MetaDockerArgs(m);
      && |r| == 6 + |m.exposed_ports| + |m.volumes|
      && r[..3] == [RunPrivileged, "--name " + m.fqdn, "-h " + m.fqdn]
  {
  }

  /** The two mounts follow the port maps, and the base comes last. */
  lemma MetaDockerArgsFixed(m: Meta)
    ensures var r, p, v := MetaDockerArgs(m), |m.exposed_ports|, |m.volumes|;
      && |r| == 6 + p + v
      && r[3 + p] == SitesMount(m.fqdn)
      && r[4 + p] == TimezoneMount
      && r[5 + p + v] == m.base
  {
  }

  function MetaArgsAfterHead(m: Meta): seq<string> {
    PortMaps(m.exposed_ports)
    + ([SitesMount(m.fqdn), TimezoneMount]
    + (VolumeMaps(m.domain, m.name, m.volumes)
    + [m.base]))
  }

  /** The port maps follow the head, in the order `PortMaps` gives them. */
  lemma MetaDockerArgsPorts(m: Meta)
    ensures var r, p := MetaDockerArgs(m), |m.exposed_ports|;
      r[3..3 + p] == PortMaps(m.exposed_ports)
  {
    var r, p := MetaDockerArgs(m), |m.exposed_ports|;
    var head := [RunPrivileged, "--name " + m.fqdn, "-h " + m.fqdn];
    var rest := MetaArgsAfterHead(m);
    PrefixOfConcat(head, rest);
    PrefixOfConcat(PortMaps(m.exposed_ports), rest[p..]);
    SliceOfSlice(r, 3, p);
  }

  /** The volume maps follow the two mounts, in list order. */
  lemma MetaDockerArgsVolumes(m: Meta)
    ensures var r, p, v := MetaDockerArgs(m), |m.exposed_ports|, |m.volumes|;
      r[5 + p..5 + p + v] == VolumeMaps(m.domain, m.name, m.volumes)
  {
    var r, p, v := MetaDockerArgs(m), |m.exposed_ports|, |m.volumes|;
    var vols := VolumeMaps(m.domain, m.name, m.volumes);
    SuffixAfterThree([RunPrivileged, "--name " + m.fqdn, "-h " + m.fqdn], PortMaps(m.exposed_ports),
                     [SitesMount(m.fqdn), TimezoneMount], vols + [m.base]);
    PrefixOfConcat(vols, [m.base]);
    SliceOfSuffix(r, 5 + p, 0, v);
  }

  /** The meta's launch command: its arguments joined by single spaces. */
  function MetaDockerCommand(m: Meta): string {
    Join(MetaDockerArgs(m), " ")
  }

  /** The launch command starts with the run flags and names the container by its fqdn. */
  lemma MetaDockerCommandHead(m: Meta)
    ensures var cmd := MetaDockerCommand(m);
      var head := RunPrivileged + " " + ("--name " + m.fqdn) + " " + ("-h " + m.fqdn) + " ";
      |head| <= |cmd| && cmd[..|head|] == head
  {
    var args := MetaDockerArgs(m);
    MetaDockerArgsLayout(m);
    assert args[0] == RunPrivileged && args[1] == "--name " + m.fqdn && args[2] == "-h " + m.fqdn by {
      assert args[..3] == [RunPrivileged, "--name " + m.fqdn, "-h " + m.fqdn];
    }
    JoinStartsWith(args, " ");
  }

  /** The launch command ends with the base image. */
  lemma MetaDockerCommandTail(m: Meta)
    ensures var cmd, tail := MetaDockerCommand(m), " " + m.base;
      |tail| <= |cmd| && cmd[|cmd| - |tail|..] == tail
  {
    MetaDockerArgsFixed(m);
    JoinEndsWith(MetaDockerArgs(m), " ");
  }

  /**
   * In a valid meta, the launch command's port maps publish the meta's
   * proxy ports and every port any child exposes.
   */
  lemma MetaPublishesChildPorts(m: Meta)
    requires Valid(m)
    ensures var r, p := MetaDockerArgs(m), |m.exposed_ports|;
      var published := DecodePortMaps(r[3..3 + p]);
      && published.Some?
      && Overwrite(map[], published.value) == m.exposed_ports
      && m.http_port in Overwrite(map[], published.value)
      && m.https_port in Overwrite(map[], published.value)
      && forall n, k | n in m.containers && k in m.containers[n].exposed_ports ::
           k in Overwrite(map[], published.value)
  {
    MetaDockerArgsPorts(m);
    PortMapsRoundTrip(m.exposed_ports);
    ValidPortsCover(m);
  }

  /** A valid meta maps its proxy ports and every port any child exposes. */
  lemma ValidPortsCover(m: Meta)
    requires Valid(m)
    ensures m.http_port in m.exposed_ports && m.https_port in m.exposed_ports
    ensures forall n, k | n in m.containers && k in m.containers[n].exposed_ports :: k in m.exposed_ports
  {
    forall n | n in m.containers ensures m.containers[n].exposed_ports.Keys <= m.exposed_ports.Keys {
      assert ChildValid(m, n);
    }
  }
}

=== FILE: sorting.dfy ===
/**
 * Deterministic enumeration of a finite set in ascending order.
 *
 * The container model renders port maps in ascending port order and child
 * proxy configurations in ascending name order; both are instances of the
 * generic `Sorted` enumeration defined here.
 */
module Sorting {

  /** `lt` is irreflexive, transitive and total on distinct elements. */
  ghost predicate StrictTotalOrder<T(!new)>(lt: (T, T) -> bool) {
    && (forall x :: !lt(x, x))
    && (forall x, y, z :: lt(x, y) && lt(y, z) ==> lt(x, z))
    && (forall x, y :: x != y ==> lt(x, y) || lt(y, x))
  }

  /** Every earlier element is strictly below every later one. */
  ghost predicate Ascending<T>(s: seq<T>, lt: (T, T) -> bool) {
    forall i, j | 0 <= i < j < |s| :: lt(s[i], s[j])
  }

  /** `m` is the least element of `s`. */
  predicate IsLeast<T(==)>(m: T, s: set<T>, lt: (T, T) -> bool) {
    m in s && forall y | y in s && y != m :: lt(m, y)
  }

  lemma {:induction false} LeastExists<T(!new)>(s: set<T>, lt: (T, T) -> bool)
    requires s != {}
    requires StrictTotalOrder(lt)
    ensures exists m :: IsLeast(m, s, lt)
    decreases s
  {
    var x :| x in s;
    if s == {x} {
      assert IsLeast(x, s, lt);
    } else {
      LeastExists(s - {x}, lt);
      var m :| IsLeast(m, s - {x}, lt);
      if lt(m, x) {
        assert IsLeast(m, s, lt);
      } else {
        assert lt(x, m);
        assert IsLeast(x, s, lt);
      }
    }
  }

  /** The least element of a non-empty set. */
  function Least<T(!new)>(s: set<T>, lt: (T, T) -> bool): (m: T)
    requires s != {}
    requires StrictTotalOrder(lt)
    ensures m in s
    ensures forall y | y in s && y != m :: lt(m, y)
  {
    LeastExists(s, lt);
    var m :| IsLeast(m, s, lt);
    m
  }

  /** The elements of `s`, each once, in ascending order. */
  function Sorted<T(!new)>(s: set<T>, lt: (T, T) -> bool): (r: seq<T>)
    requires StrictTotalOrder(lt)
    ensures Ascending(r, lt)
    ensures forall x :: x in r <==> x in s
    ensures |r| == |s|
    decreases s
  {
    if s == {} then []
    else
      var m := Least(s, lt);
      [m] + Sorted(s - {m}, lt)
  }

  /** An ascending enumeration of a set is unique: whoever sorts, the order is the same. */
  lemma {:induction false} AscendingUnique<T(!new)>(a: seq<T>, b: seq<T>, lt: (T, T) -> bool)
    requires StrictTotalOrder(lt)
    requires Ascending(a, lt) && Ascending(b, lt)
    requires forall x :: x in a <==> x in b
    ensures a == b
    decreases |a|
  {
    if |a| == 0 {
      assert forall x :: x !in b;
      HeadIsMember(b);
    } else {
      assert a[0] in b;
      assert |b| != 0;
      HeadIsLeast(a, lt);
      HeadIsLeast(b, lt);
      var x, y := a[0], b[0];
      assert y in a;
      assert x == y || lt(y, x);
      assert y == x || lt(x, y);
      assert x == y;
      forall x
        ensures x in a[1..] <==> x in b[1..]
      {
        if x in a[1..] {
          var i :| 1 <= i < |a| && a[i] == x;
          assert x != a[0] by { assert lt(a[0], a[i]); }
          assert x in b;
        }
        if x in b[1..] {
          var i :| 1 <= i < |b| && b[i] == x;
          assert x != b[0] by { assert lt(b[0], b[i]); }
          assert x in a;
        }
      }
      AscendingUnique(a[1..], b[1..], lt);
      assert a == [a[0]] + a[1..];
      assert b == [b[0]] + b[1..];
    }
  }

  lemma HeadIsMember<T>(s: seq<T>)
    ensures |s| > 0 ==> s[0] in s
  {
  }

  lemma HeadIsLeast<T(!new)>(s: seq<T>, lt: (T, T) -> bool)
    requires Ascending(s, lt)
    requires |s| > 0
    ensures forall x | x in s :: x == s[0] || lt(s[0], x)
  {
  }

  predicate NatLess(x: nat, y: nat) {
    x < y
  }

  /** The numbers of `s`, each once, in strictly ascending order. */
  function SortedNats(s: set<nat>): (r: seq<nat>)
    ensures forall i, j | 0 <= i < j < |r| :: r[i] < r[j]
    ensures forall x :: x in r <==> x in s
    ensures |r| == |s|
  {
    assert StrictTotalOrder(NatLess);
    Sorted(s, NatLess)
  }

  /** Any strictly ascending listing of `s` is the one `SortedNats` gives. */
  lemma SortedNatsUnique(s: set<nat>, r: seq<nat>)
    requires forall i, j | 0 <= i < j < |r| :: r[i] < r[j]
    requires forall x :: x in r <==> x in s
    ensures SortedNats(s) == r
  {
    assert StrictTotalOrder(NatLess);
    AscendingUnique(SortedNats(s), r, NatLess);
  }
}

=== FILE: specs.dfy ===
/**
 * Specification documents as the loader delivers them: mappings from
 * argument names to values. This module binds such a mapping to the
 * container constructor's keyword arguments and performs the merge step
 * that resolves a reference to a remotely stored specification.
 */
module Specs {
  import opened Wrappers
  import opened Containers

  /** A value of a parsed specification document. */
  datatype Value =
    | Str(s: string)
    | Int(i: int)
    | Bool(b: bool)
    | Ports(ports: map<nat, string>)
    | Strs(items: seq<string>)
    | Pairs(pairs: seq<(string, string)>)
    | Null

  /** One specification document, or one entry of a `subcontainers` list. */
  type Mapping = map<string, Value>

  /** Why a specification could not be turned into a container. */
  datatype SpecError =
    | UnknownField
    | MissingName
    | BadField(key: string)
    | Unresolved(link: Value)

  /** The key that marks a reference to a remotely stored specification. */
  const SpecificationKey := "specification"

  /** The keyword arguments the container constructor accepts. */
  const ContainerFields: set<string> := {
    "name", "base", "exposed_ports", "external", "http_port", "https_port",
    "domain", "volumes", "envs", "command", "data" }

  /** Python truthiness of a document value. */
  predicate Truthy(v: Value) {
    match v
    case Str(s) => s != ""
    case Int(i) => i != 0
    case Bool(b) => b
    case Ports(p) => p != map[]
    case Strs(items) => items != []
    case Pairs(pairs) => pairs != []
    case Null => false
  }

  // ------------------------------------------------------------ remote merge

  /**
   * The pure step of fetching a remote specification: the fetched document
   * updated with the local entry's keys (local values win), with the
   * reference key itself removed.
   */
  function GrabSpecification(fetched: Mapping, local: Mapping): (r: Mapping)
    requires SpecificationKey in local
    ensures SpecificationKey !in r
    ensures r.Keys == (fetched.Keys + local.Keys) - {SpecificationKey}
    ensures forall k | k in local && k != SpecificationKey :: r[k] == local[k]
    ensures forall k | k in fetched && k !in local :: r[k] == fetched[k]
  {
    (fetched + local) - {SpecificationKey}
  }

  /**
   * Resolves one `subcontainers` entry. An entry without the reference key
   * is used as it is. A reference whose link is falsy merges onto an empty
   * document; any other link must be a string naming a document in
   * `documents` (the documents the loader has fetched), or resolution fails.
   */
  function Resolve(entry: Mapping, documents: map<string, Mapping>): (r: Result<Mapping, SpecError>)
    ensures SpecificationKey !in entry ==> r == Success(entry)
    ensures r.Success? ==> SpecificationKey !in r.value
    ensures r.Success? ==> forall k | k in entry && k != SpecificationKey :: k in r.value && r.value[k] == entry[k]
    ensures r.Failure? <==>
      && SpecificationKey in entry
      && Truthy(entry[SpecificationKey])
      && !(entry[SpecificationKey].Str? && entry[SpecificationKey].s in documents)
    ensures SpecificationKey in entry && !Truthy(entry[SpecificationKey]) ==>
      r == Success(GrabSpecification(map[], entry))
    ensures (SpecificationKey in entry && Truthy(entry[SpecificationKey])
             && entry[SpecificationKey].Str? && entry[SpecificationKey].s in documents) ==>
      r == Success(GrabSpecification(documents[entry[SpecificationKey].s], entry))
  {
    if SpecificationKey !in entry then Success(entry)
    else
      var link := entry[SpecificationKey];
      if !Truthy(link) then Success(GrabSpecification(map[], entry))
      else if link.Str? && link.s in documents then Success(GrabSpecification(documents[link.s], entry))
      else Failure(Unresolved(link))
  }

  // ----------------------------------------------------------------- binding

  /** A string argument, `default` when absent. */
  function StrArg(m: Mapping, key: string, default: string): Result<string, SpecError> {
    if key !in m then Success(default)
    else if m[key].Str? then Success(m[key].s)
    else Failure(BadField(key))
  }

  /** A string argument that may also be `None`, which counts as absent. */
  function OptStrArg(m: Mapping, key: string): Result<string, SpecError> {
    if key !in m || m[key].Null? then Success("")
    else if m[key].Str? then Success(m[key].s)
    else Failure(BadField(key))
  }

  function BoolArg(m: Mapping, key: string, default: bool): Result<bool, SpecError> {
    if key !in m then Success(default)
    else if m[key].Bool? then Success(m[key].b)
    else Failure(BadField(key))
  }

  /** A port number argument: a non-negative integer, 0 when absent. */
  function PortArg(m: Mapping, key: string): Result<nat, SpecError> {
    if key !in m then Success(0)
    else if m[key].Int? && m[key].i >= 0 then Success(m[key].i as nat)
    else Failure(BadField(key))
  }

  function PortsArg(m: Mapping, key: string): Result<map<nat, string>, SpecError> {
    if key !in m || m[key].Null? then Success(map[])
    else if m[key].Ports? then Success(m[key].ports)
    else Failure(BadField(key))
  }

  function StrsArg(m: Mapping, key: string): Result<seq<string>, SpecError> {
    if key !in m || m[key].Null? then Success([])
    else if m[key].Strs? then Success(m[key].items)
    else Failure(BadField(key))
  }

  function PairsArg(m: Mapping, key: string): Result<seq<(string, string)>, SpecError> {
    if key !in m || m[key].Null? then Success([])
    else if m[key].Pairs? then Success(m[key].pairs)
    else Failure(BadField(key))
  }

  /** Every argument present has the shape its parameter expects. */
  predicate WellShaped(m: Mapping) {
    && ("name" in m ==> m["name"].Str?)
    && ("base" in m ==> m["base"].Str?)
    && ("domain" in m ==> m["domain"].Str?)
    && ("command" in m ==> m["command"].Str? || m["command"].Null?)
    && ("external" in m ==> m["external"].Bool?)
    && ("data" in m ==> m["data"].Bool?)
    && ("http_port" in m ==> m["http_port"].Int? && m["http_port"].i >= 0)
    && ("https_port" in m ==> m["https_port"].Int? && m["https_port"].i >= 0)
    && ("exposed_ports" in m ==> m["exposed_ports"].Ports? || m["exposed_ports"].Null?)
    && ("volumes" in m ==> m["volumes"].Strs? || m["volumes"].Null?)
    && ("envs" in m ==> m["envs"].Pairs? || m["envs"].Null?)
  }

  /**
   * Binds a mapping to the constructor's keyword arguments, as a call
   * `Container(**m)` does: an unknown key or a missing name is an error,
   * every other argument falls back to its default.
   */
  function Bind(m: Mapping): (r: Result<ContainerSpec, SpecError>)
    ensures r.Success? <==> m.Keys <= ContainerFields && "name" in m && WellShaped(m)
    ensures !(m.Keys <= ContainerFields) ==> r == Failure(UnknownField)
    ensures m.Keys <= ContainerFields && "name" !in m ==> r == Failure(MissingName)
    ensures r.Success? ==> r.value.name == m["name"].s
    ensures r.Success? ==> r.value.domain == (if "domain" in m then m["domain"].s else "")
    ensures r.Success? ==> r.value.base == (if "base" in m then m["base"].s else "ubuntu")
    ensures r.Success? ==> (r.value.exposed_ports ==
      (if "exposed_ports" in m && !m["exposed_ports"].Null? then m["exposed_ports"].ports else map[]))
    ensures r.Success? ==> r.value.external == (if "external" in m then m["external"].b else true)
    ensures r.Success? ==> r.value.http_port == (if "http_port" in m then m["http_port"].i else 0)
    ensures r.Success? ==> r.value.https_port == (if "https_port" in m then m["https_port"].i else 0)
    ensures r.Success? ==> (r.value.volumes ==
      (if "volumes" in m && !m["volumes"].Null? then m["volumes"].items else []))
    ensures r.Success? ==> (r.value.envs ==
      (if "envs" in m && !m["envs"].Null? then m["envs"].pairs else []))
    ensures r.Success? ==> (r.value.command ==
      (if "command" in m && !m["command"].Null? then m["command"].s else ""))
    ensures r.Success? ==> r.value.data == (if "data" in m then m["data"].b else false)
  {
    if !(m.Keys <= ContainerFields) then Failure(UnknownField)
    else if "name" !in m then Failure(MissingName)
    else
      var name :- StrArg(m, "name", "");
      var base :- StrArg(m, "base", "ubuntu");
      var ports :- PortsArg(m, "exposed_ports");
      var external :- BoolArg(m, "external", true);
      var http :- PortArg(m, "http_port");
      var https :- PortArg(m, "https_port");
      var domain :- StrArg(m, "domain", "");
      var volumes :- StrsArg(m, "volumes");
      var envs :- PairsArg(m, "envs");
      var command :- OptStrArg(m, "command");
      var data :- BoolArg(m, "data", false);
      Success(ContainerSpec(name, base, ports, external, http, https, domain, volumes, envs, command, data))
  }

  /** The mapping that spells out every argument of a specification. */
  function Unbind(spec: ContainerSpec): Mapping {
    map[
      "name" := Str(spec.name),
      "base" := Str(spec.base),
      "exposed_ports" := Ports(spec.exposed_ports),
      "external" := Bool(spec.external),
      "http_port" := Int(spec.http_port),
      "https_port" := Int(spec.https_port),
      "domain" := Str(spec.domain),
      "volumes" := Strs(spec.volumes),
      "envs" := Pairs(spec.envs),
      "command" := Str(spec.command),
      "data" := Bool(spec.data)]
  }

  /** Binding the spelled-out mapping of a specification gives that specification back. */
  lemma BindUnbind(spec: ContainerSpec)
    ensures Bind(Unbind(spec)) == Success(spec)
  {
    var m := Unbind(spec);
    assert m.Keys == ContainerFields;
    assert StrArg(m, "name", "") == Success(spec.name);
    assert StrArg(m, "base", "ubuntu") == Success(spec.base);
    assert PortsArg(m, "exposed_ports") == Success(spec.exposed_ports);
    assert BoolArg(m, "external", true) == Success(spec.external);
    assert PortArg(m, "http_port") == Success(spec.http_port);
    assert PortArg(m, "https_port") == Success(spec.https_port);
    assert StrArg(m, "domain", "") == Success(spec.domain);
    assert StrsArg(m, "volumes") == Success(spec.volumes);
    assert PairsArg(m, "envs") == Success(spec.envs);
    assert OptStrArg(m, "command") == Success(spec.command);
    assert BoolArg(m, "data", false) == Success(spec.data);
  }

  /** A mapping that only names the container binds to the defaults. */
  lemma BindNameOnly(name: string)
    ensures Bind(map["name" := Str(name)]) == Success(DefaultSpec(name))
  {
  }
}

=== FILE: strings.dfy ===
/**
 * String helpers with the semantics of the Python built-ins the container
 * model relies on: `sep.join(parts)`, `s.split(c)[-1]`, decimal formatting
 * of a non-negative integer and the ordering `sorted` uses on `str` keys.
 */
module Strings {
  import opened Wrappers
  import opened Sorting

  // ---------------------------------------------------------------- join

  /** Total length of the parts. */
  function TotalLength(parts: seq<string>): nat {
    if |parts| == 0 then 0 else TotalLength(parts[..|parts| - 1]) + |parts[|parts| - 1]|
  }

  /** Python's `sep.join(parts)`: the parts with one `sep` between neighbours. */
  function Join(parts: seq<string>, sep: string): string
    decreases |parts|
  {
    if |parts| == 0 then ""
    else if |parts| == 1 then parts[0]
    else parts[0] + sep + Join(parts[1..], sep)
  }

  /** A join is as long as its parts plus one separator between each pair of neighbours. */
  lemma {:induction false} JoinLength(parts: seq<string>, sep: string)
    ensures |parts| > 0 ==> |Join(parts, sep)| == TotalLength(parts) + (|parts| - 1) * |sep|
    ensures |parts| == 0 ==> Join(parts, sep) == ""
    decreases |parts|
  {
    if |parts| > 1 {
      var n, k := |parts|, |sep|;
      TotalLengthCons(parts);
      JoinLength(parts[1..], sep);
      assert Join(parts, sep) == parts[0] + sep + Join(parts[1..], sep);
      assert (n - 1) * k == (n - 2) * k + k;
    }
  }

  lemma {:induction false} TotalLengthCons(parts: seq<string>)
    requires |parts| > 0
    ensures TotalLength(parts) == |parts[0]| + TotalLength(parts[1..])
    decreases |parts|
  {
    if |parts| > 1 {
      TotalLengthCons(parts[..|parts| - 1]);
      assert parts[..|parts| - 1][1..] == parts[1..][..|parts| - 2];
      assert parts[..|parts| - 1][0] == parts[0];
    }
  }

  /** Joining a concatenation joins the halves and puts one separator between them. */
  lemma {:induction false} JoinAppend(a: seq<string>, b: seq<string>, sep: string)
    requires |a| > 0 && |b| > 0
    ensures Join(a + b, sep) == Join(a, sep) + sep + Join(b, sep)
    decreases |a|
  {
    if |a| == 1 {
      assert (a + b)[1..] == b;
    } else {
      assert (a + b)[1..] == a[1..] + b;
      JoinAppend(a[1..], b, sep);
    }
  }

  /** A concatenation starts with its left operand. */
  lemma PrefixOfConcat<T>(a: seq<T>, b: seq<T>)
    ensures (a + b)[..|a|] == a
    ensures (a + b)[|a|..] == b
  {
  }

  /** Slicing composes: dropping twice drops the sum, and a slice is a prefix of a suffix. */
  lemma SliceOfSlice<T>(s: seq<T>, i: nat, j: nat)
    requires i + j <= |s|
    ensures s[i..][j..] == s[i + j..]
    ensures s[i..i + j] == s[i..][..j]
  {
  }

  /** What follows three leading groups of a right-nested concatenation. */
  lemma SuffixAfterThree<T>(a: seq<T>, b: seq<T>, c: seq<T>, rest: seq<T>)
    ensures (a + (b + (c + rest)))[|a| + |b| + |c|..] == rest
  {
    assert a + (b + (c + rest)) == (a + b + c) + rest;
  }

  /** A slice of a suffix is a slice of the whole, shifted. */
  lemma SliceOfSuffix<T>(s: seq<T>, k: nat, i: nat, j: nat)
    requires i <= j && k + j <= |s|
    ensures s[k..][i..j] == s[k + i..k + j]
    ensures s[k..][..j] == s[k..k + j]
  {
  }

  /** Two neighbouring groups at the start of a suffix are slices of the whole, shifted. */
  lemma GroupsOfSuffix<T>(s: seq<T>, k: nat, tail: seq<T>, a: seq<T>, b: seq<T>)
    requires k <= |s| && s[k..] == tail && |a| + |b| <= |tail|
    requires tail[..|a|] == a && tail[|a|..|a| + |b|] == b
    ensures s[k..k + |a|] == a
    ensures s[k + |a|..k + |a| + |b|] == b
  {
    SliceOfSuffix(s, k, |a|, |a| + |b|);
  }

  /** Joining conses: the first part precedes one separator. */
  lemma JoinCons(x: string, rest: seq<string>, sep: string)
    requires |rest| > 0
    ensures Join([x] + rest, sep) == x + sep + Join(rest, sep)
  {
    assert ([x] + rest)[1..] == rest;
  }

  /** Joining appends: the last part follows one separator. */
  lemma JoinSnoc(a: seq<string>, x: string, sep: string)
    requires |a| > 0
    ensures Join(a + [x], sep) == Join(a, sep) + sep + x
  {
    JoinAppend(a, [x], sep);
  }

  /** A join begins with its first three parts, each followed by a separator. */
  lemma JoinStartsWith(parts: seq<string>, sep: string)
    requires |parts| > 3
    ensures var p := parts[0] + sep + parts[1] + sep + parts[2] + sep;
      |p| <= |Join(parts, sep)| && Join(parts, sep)[..|p|] == p
  {
    var rest := parts[3..];
    var p := parts[0] + sep + parts[1] + sep + parts[2] + sep;
    assert Join(parts, sep) == Join([parts[0], parts[1], parts[2]], sep) + sep + Join(rest, sep) by {
      assert parts == [parts[0], parts[1], parts[2]] + rest;
      JoinAppend([parts[0], parts[1], parts[2]], rest, sep);
    }
    assert Join([parts[0], parts[1], parts[2]], sep) + sep == p by {
      JoinCons(parts[1], [parts[2]], sep);
      JoinCons(parts[0], [parts[1], parts[2]], sep);
    }
    PrefixOfConcat(p, Join(rest, sep));
  }

  /** A join of at least two parts ends with a separator and the last part. */
  lemma JoinEndsWith(parts: seq<string>, sep: string)
    requires |parts| > 1
    ensures var t := sep + parts[|parts| - 1];
      |t| <= |Join(parts, sep)| && Join(parts, sep)[|Join(parts, sep)| - |t|..] == t
  {
    var n := |parts|;
    assert parts == parts[..n - 1] + [parts[n - 1]];
    JoinSnoc(parts[..n - 1], parts[n - 1], sep);
    var x := Join(parts[..n - 1], sep);
    assert Join(parts, sep) == x + (sep + parts[n - 1]);
    PrefixOfConcat(x, sep + parts[n - 1]);
  }

  /** A join of at least three parts ends with the last two parts, each after a separator. */
  lemma JoinEndsWithTwo(parts: seq<string>, sep: string)
    requires |parts| > 2
    ensures var t := sep + parts[|parts| - 2] + sep + parts[|parts| - 1];
      |t| <= |Join(parts, sep)| && Join(parts, sep)[|Join(parts, sep)| - |t|..] == t
  {
    var n := |parts|;
    var init := parts[..n - 2];
    assert parts == init + [parts[n - 2]] + [parts[n - 1]];
    JoinSnoc(init, parts[n - 2], sep);
    JoinSnoc(init + [parts[n - 2]], parts[n - 1], sep);
    var x := Join(init, sep);
    var t := sep + parts[n - 2] + sep + parts[n - 1];
    assert Join(parts, sep) == x + t;
    PrefixOfConcat(x, t);
  }

  // ------------------------------------------------------------ segments

  /** Python's `s.split(c)[-1]`: everything after the last `c`, or all of `s` when it has none. */
  function LastSegment(s: string, c: char): string
    decreases |s|
  {
    if |s| == 0 then ""
    else if s[|s| - 1] == c then ""
    else LastSegment(s[..|s| - 1], c) + [s[|s| - 1]]
  }

  /**
   * The last segment is a suffix free of `c` that is either all of `s` or
   * preceded by a `c`.
   */
  lemma {:induction false} LastSegmentShape(s: string, c: char)
    ensures var r := LastSegment(s, c);
      && |r| <= |s| && r == s[|s| - |r|..]
      && c !in r
      && (|r| < |s| ==> s[|s| - |r| - 1] == c)
    decreases |s|
  {
    if |s| > 0 && s[|s| - 1] != c {
      var init := s[..|s| - 1];
      LastSegmentShape(init, c);
      var r0 := LastSegment(init, c);
      assert s == init + [s[|s| - 1]];
      assert LastSegment(s, c) == r0 + [s[|s| - 1]];
    }
  }

  /** The segment after a separator that is followed by no other separator. */
  lemma {:induction false} LastSegmentAfter(a: string, c: char, b: string)
    requires c !in b
    ensures LastSegment(a + [c] + b, c) == b
  {
    var s := a + [c] + b;
    var r := LastSegment(s, c);
    LastSegmentShape(s, c);
    assert s[|s| - |b|..] == b;
    // every longer suffix reaches back to the separator
    forall j | 0 <= j < |s| - |b|
      ensures c in s[j..]
    {
      assert s[j..][|s| - |b| - 1 - j] == c;
    }
    // no shorter suffix is preceded by one
    forall j | |s| - |b| <= j < |s|
      ensures s[j] != c
    {
      assert s[j] == b[j - (|s| - |b|)];
    }
    assert |r| == |b|;
  }

  // --------------------------------------------------------- decimal nats

  predicate IsDigit(ch: char) {
    '0' <= ch <= '9'
  }

  predicate AllDigits(s: string) {
    forall i | 0 <= i < |s| :: IsDigit(s[i])
  }

  function DigitChar(d: nat): (ch: char)
    requires d < 10
    ensures IsDigit(ch)
  {
    "0123456789"[d]
  }

  function DigitValue(ch: char): (d: nat)
    requires IsDigit(ch)
    ensures d < 10
  {
    ch as int - '0' as int
  }

  lemma DigitRoundTrip(d: nat)
    requires d < 10
    ensures DigitValue(DigitChar(d)) == d
  {
  }

  /** The decimal notation Python's `format` gives a non-negative integer. */
  function NatToString(n: nat): (r: string)
    ensures |r| > 0 && AllDigits(r)
    ensures |r| > 1 ==> r[0] != '0'
    decreases n
  {
    if n < 10 then [DigitChar(n)] else NatToString(n / 10) + [DigitChar(n % 10)]
  }

  /** The value of a string of decimal digits. */
  function ParseNat(s: string): nat
    requires AllDigits(s)
    decreases |s|
  {
    if |s| == 0 then 0 else ParseNat(s[..|s| - 1]) * 10 + DigitValue(s[|s| - 1])
  }

  /** Reading back the decimal notation of a number gives the number. */
  lemma {:induction false} ParseNatToString(n: nat)
    ensures ParseNat(NatToString(n)) == n
    decreases n
  {
    var r := NatToString(n);
    DigitRoundTrip(n % 10);
    if n >= 10 {
      ParseNatToString(n / 10);
      assert r[..|r| - 1] == NatToString(n / 10);
    }
  }

  // ------------------------------------------------------------ searching

  /** The position of the first `c` in `s`. */
  function IndexOf(s: string, c: char): (r: Option<nat>)
    ensures r.Some? ==> r.value < |s| && s[r.value] == c && c !in s[..r.value]
    ensures r.None? ==> c !in s
    decreases |s|
  {
    if |s| == 0 then None
    else if s[0] == c then Some(0)
    else
      match IndexOf(s[1..], c)
      case None => None
      case Some(i) =>
        assert s[..i + 1] == [s[0]] + s[1..][..i];
        Some(i + 1)
  }

  lemma IndexOfAfter(a: string, c: char, b: string)
    requires c !in a
    ensures IndexOf(a + [c] + b, c) == Some(|a|)
  {
    var s := a + [c] + b;
    assert s[|a|] == c;
    var r := IndexOf(s, c);
    assert r.Some?;
    forall k | 0 <= k < |a|
      ensures s[k] != c
    {
      assert s[k] == a[k];
    }
    forall k | |a| < k <= |s|
      ensures c in s[..k]
    {
      assert s[..k][|a|] == c;
    }
    assert r.value == |a|;
  }

  // ---------------------------------------------------------- ordering

  /** Python's `<` on `str`: lexicographic by code point, a proper prefix first. */
  predicate LexLess(a: string, b: string)
    decreases |a|
  {
    if |b| == 0 then false
    else if |a| == 0 then true
    else if a[0] != b[0] then a[0] < b[0]
    else LexLess(a[1..], b[1..])
  }

  lemma {:induction false} LexLessIrreflexive(a: string)
    ensures !LexLess(a, a)
    decreases |a|
  {
    if |a| > 0 {
      LexLessIrreflexive(a[1..]);
    }
  }

  lemma {:induction false} LexLessTransitive(a: string, b: string, c: string)
    requires LexLess(a, b) && LexLess(b, c)
    ensures LexLess(a, c)
    decreases |a|
  {
    if |a| > 0 && a[0] == b[0] && b[0] == c[0] {
      LexLessTransitive(a[1..], b[1..], c[1..]);
    }
  }

  lemma {:induction false} LexLessTotal(a: string, b: string)
    requires a != b
    ensures LexLess(a, b) || LexLess(b, a)
    decreases |a|
  {
    if |a| > 0 && |b| > 0 && a[0] == b[0] {
      assert a == [a[0]] + a[1..];
      assert b == [b[0]] + b[1..];
      LexLessTotal(a[1..], b[1..]);
    }
  }

  lemma LexLessIsStrictTotalOrder()
    ensures StrictTotalOrder(LexLess)
  {
    forall a {:trigger LexLess(a, a)} ensures !LexLess(a, a) {
      LexLessIrreflexive(a);
    }
    forall a, b, c | LexLess(a, b) && LexLess(b, c) ensures LexLess(a, c) {
      LexLessTransitive(a, b, c);
    }
    forall a, b | a != b ensures LexLess(a, b) || LexLess(b, a) {
      LexLessTotal(a, b);
    }
  }

  /** The strings of `s`, each once, in the order Python's `sorted` gives them. */
  function SortedStrings(s: set<string>): (r: seq<string>)
    ensures forall i, j | 0 <= i < j < |r| :: LexLess(r[i], r[j])
    ensures forall x :: x in r <==> x in s
    ensures |r| == |s|
  {
    LexLessIsStrictTotalOrder();
    Sorted(s, LexLess)
  }
}

=== FILE: wrappers.dfy ===
/** Failure-compatible result types shared by the model. */
module Wrappers {

  /** An optional value. */
  datatype Option<+T> = None | Some(value: T)

  /** Either a value or the error that stopped its construction. */
  datatype Result<+R, +E> = Success(value: R) | Failure(error: E) {

    predicate IsFailure() {
      Failure?
    }

    function PropagateFailure<U>(): Result<U, E>
      requires Failure?
    {
      Failure(error)
    }

    function Extract(): R
      requires Success?
    {
      value
    }
  }
}
